=== FILE: README.md ===
# Stub HTTP server: double registry and response resolution

A model, in Dafny, of the core of an HTTP test-double ("stub") server. A test
suite registers *doubles*: canned request/response pairs keyed by HTTP method
and url. The server answers requests from them with a status, a body (text,
JSON, a fixture's contents or a streamed file), or a redirect.

The model states the behaviour that the repository's two test suites
specify:

- `test/unit-tests/Server.test.js`: the registry and the shape checks;
- `test/functional-tests/App.test.js`: response resolution and `serve`/`load`.

Modules, one per component:

- `wrappers.dfy` (`Wrappers`): `Option` for optional properties, `Result` for thrown errors.
- `json.dfy` (`Json`): the structured values a double's `data` or a fixture may hold. It also holds
  the body encoding the server writes for them and the decoding the client applies to an
  `application/json` body, with the round trip `Parse(Serialize(v)) == Some(v)` proved.
- `doubles.dfy` (`Doubles`): the double (`request`, `response`, `attachment`), its key, and the
  duck-typed checks `isADouble`/`isArrayOfDoubles`. It also holds the validating factory that
  turns a plain value into a double.
- `registry.dfy` (`DoubleRegistry`): `allDoubles` as a sequence with unique keys, plus `registerDouble`,
  `request`, `removeAllDoublesWithUri` and `isRegistered`. Lemmas show the registry behaves as a
  finite map from key to double.
- `resolver.dfy` (`Resolver`): a matched double becomes a response: status, content type, Location
  header and body. A separate `Receive` describes what the test client reads from that response.
- `server.dfy` (`Server`): `new Server`, `load`, `start`, `stop`, `serve` with its config defaults,
  and the listener. The listener dispatches a request to a double and answers 404 when none matches.
- `scenarios.dfy` (`Scenarios`): the concrete situations of the test suites replayed on the model.

Behaviour a cited test fixes, where a quick reading might expect otherwise:

- `serve` does not empty the registry. It registers `config.doubles` on top of what is already
  there, and with no `doubles` it keeps every double loaded before. Two tests show this. In
  App.test.js:277-290 a double is loaded and then a config without doubles is served, and the double
  is still answered. In App.test.js:258-266 the shared `app` answers `/` with 200 even though only an
  earlier test registered it.
- The HTTP listener matches the path of the double's url, not the full url: App.test.js:263-265
  answers `/` on port 8002 from a double whose url names port 8001.
- `fixture` is a property of `response` (App.test.js:324). `attachment` is a property of the double
  itself (App.test.js:225).
- String `data` is served as HTML text (App.test.js:90-94). An object in `data` is served as JSON
  (App.test.js:113-116), and so are an object fixture's contents (App.test.js:331-335).
- On a miss, `request` leaves a response with status 404 on the server (Server.test.js:71-76).

Choices the model makes where no test decides:

- When several registered doubles share a method and a path, the listener serves the first one
  registered.
- Resolution order: redirect, then attachment, then fixture, then literal `data`, then an empty
  body. No test gives a double more than one of these.
- The status is `response.status` when given and 200 otherwise. The 200 applies to a redirect
  without a `status` too, although every redirect test sets one.
- Methods are compared without regard to case, and a missing method means `GET`. The one test that
  passes a lower-case method (Server.test.js:72-75) misses whatever the case.
- The unit-level `request(method, url)` matches the full url exactly. The tests at Server.test.js:81,
  135 and 144 all pass the registered url itself, so matching by path alone would pass them too.
- A fixture's contents are always served as JSON, whatever the loaded value is. A fixture whose
  contents are a JSON string is therefore sent as a JSON string literal, not as HTML text. The only
  fixture test (App.test.js:331-335) loads an object.
- Literal `data` that is not a string is served as JSON. Only an object is tested
  (App.test.js:113-116); numbers, booleans, null and arrays follow the same rule in the model.
- `isArrayOfDoubles` demands a non-empty array, and `serve` validates `config.doubles` with it.
  So `serve({doubles: []})` is refused with `MalformedDouble` and registers nothing, even though an
  empty list of doubles would be a natural thing to accept. No test passes `[]`.

## Model

| member | source | states |
|---|---|---|
| Json.ParseSerialize | test/functional-tests/App.test.js:98-118 | the JSON text written for any structured value parses back, as a whole body, to exactly that value (the client's deep equality) |
| Json.ValueRoundTrip | test/functional-tests/App.test.js:113-116 | decoding an encoded value followed by nothing, `,`, `]` or `}` yields that value and leaves exactly what followed |
| Json.ItemsRoundTrip | test/functional-tests/App.test.js:113-116 | the comma-separated encodings of a non-empty array's elements decode back to those elements, in order |
| Json.MembersRoundTrip | test/functional-tests/App.test.js:113-116 | the encoded `"key":value` pairs of an object decode back to the same keys and values, in order |
| Json.StringRoundTrip | test/functional-tests/App.test.js:74-118 | a string literal escaped as `JSON.stringify` escapes it, control characters included, decodes back to the original characters and stops at its closing quote |
| Json.EscapeCharDecodes | test/functional-tests/App.test.js:98-118 | each character's escape, whether `\"`, `\\`, a short control escape or `\u00XX`, decodes back to exactly that character and leaves the rest of the literal to decode as before |
| Json.LeadingZeroRejected | test/functional-tests/App.test.js:90-94 | like `JSON.parse`, the client refuses a number that starts with a zero followed by another digit, signed or not, so such a text stays text |
| Json.RawControlRejected | test/functional-tests/App.test.js:90-94 | like `JSON.parse`, the client refuses a string literal with a raw character below U+0020 after any run of ordinary characters (no quote, backslash or control before it) |
| Json.NumberRoundTrip | test/functional-tests/App.test.js:113-116 | the decimal text of any integer, negative ones included, decodes back to that integer |
| Json.Serialize | test/functional-tests/App.test.js:98-118 | the body written for structured data is never empty, and its first character announces the kind of value: a digit or `-` for a number, `"` for a string, `[` for an array, `{` for an object; `null`, `true`, `false` are written as such |
| Json.Parse | test/functional-tests/App.test.js:98-118 | the client's reading of a JSON body: a value that spans the whole text, its kind decided by the first character in the same way; `ParseSerialize` shows it inverts `Serialize` |
| Doubles.IsADouble | test/unit-tests/Server.test.js:172-192 | true exactly for an object whose `request` is present and has a `url`: `undefined`, `{}` and `{request: {}}` are not doubles |
| Doubles.IsArrayOfDoubles | test/unit-tests/Server.test.js:195-218 | only a non-empty array can hold; an array fails exactly when it is empty or one of its elements is not a double |
| Doubles.ToDouble | test/unit-tests/Server.test.js:172-192 | a plain value becomes a double exactly when `isADouble` holds: an object whose `request` has a `url`; otherwise MalformedDouble |
| Doubles.ToDoubles | test/unit-tests/Server.test.js:195-218 | a value becomes a list of doubles exactly when `isArrayOfDoubles` holds, one double per element in order |
| DoubleRegistry.IndexOfKey | test/unit-tests/Server.test.js:132-139 | the first slot holding a key; absent exactly when no registered double has that (method, url) |
| DoubleRegistry.Lookup | test/unit-tests/Server.test.js:78-82 | a hit is a registered double with the requested key; a miss happens exactly when no double has that key |
| DoubleRegistry.Register | test/unit-tests/Server.test.js:125-152 | refuses exactly the doubles without `request.url`; otherwise the result contains the double, grows by one only for a new key, leaves other keys' slots untouched, replaces the same-key slot in place, and keeps keys unique |
| DoubleRegistry.MissingRequestRejected | test/unit-tests/Server.test.js:150-152 | a double missing `request` is refused with the message "Double missing request property." |
| DoubleRegistry.IsRegistered | test/unit-tests/Server.test.js:156-170 | a url is registered exactly when, for some method, the key (method, url) is registered: the method plays no part |
| DoubleRegistry.RemoveAllWithUrl | test/unit-tests/Server.test.js:92-122 | keeps exactly the doubles whose url differs, whatever their method, and keeps keys unique |
| DoubleRegistry.RemoveKeepsOrder | test/unit-tests/Server.test.js:92-122 | removal distributes over concatenation and keeps a single double exactly when its url differs, so the kept doubles stay in registration order |
| DoubleRegistry.Request | test/unit-tests/Server.test.js:71-82 | answers NotFound, status 404, exactly when no double has the (case-insensitive method, url) key; otherwise the `response` of a double with that key |
| DoubleRegistry.LookupMember | test/unit-tests/Server.test.js:78-82 | with unique keys, every registered double is what its own key looks up |
| DoubleRegistry.LookupAfterRegister | test/unit-tests/Server.test.js:132-148 | registering is a map update: the double's key now yields the double and every other key yields what it did before |
| DoubleRegistry.RegisterIdempotent | test/unit-tests/Server.test.js:132-139 | registering the same double twice gives the same registry as registering it once |
| DoubleRegistry.LookupAfterRemove | test/unit-tests/Server.test.js:112-122 | after removing a url, every key with that url misses and every other key yields what it did before |
| DoubleRegistry.IsRegisteredAfterRemove | test/unit-tests/Server.test.js:92-122 | after removing a url, `isRegistered` is false for it and unchanged for every other url |
| DoubleRegistry.IsRegisteredAfterRegister | test/unit-tests/Server.test.js:156-170 | after registering a double, `isRegistered` is true for its url and unchanged for every other url |
| DoubleRegistry.RequestAfterRegister | test/unit-tests/Server.test.js:78-82 | a registered double answers `request` for its url and its method written in any case, with exactly its `response` |
| DoubleRegistry.SameKeyReplaces | test/unit-tests/Server.test.js:132-139 | two doubles with the same key registered in turn leave one entry, and `request` answers with the second one's response |
| DoubleRegistry.DifferentMethodsCoexist | test/unit-tests/Server.test.js:141-148 | two doubles with one url and different methods leave two entries, and each method's `request` answers with its own double's response |
| Resolver.MimeFor | test/functional-tests/App.test.js:236-242 | an attachment path gets `application/javascript; charset=UTF-8` exactly when it ends in `.js` |
| Resolver.JsonResponse | test/functional-tests/App.test.js:98-118 | a value sent as JSON carries `application/json; charset=utf-8` and a body that parses back to that value |
| Resolver.DataResponse | test/functional-tests/App.test.js:74-118 | string data is sent verbatim as `text/html; charset=utf-8`; any other data as JSON that parses back to it |
| Resolver.Resolve | test/functional-tests/App.test.js:18-256 | the status is the double's own or 200; a Location header appears exactly when `redirectURL` is set, with no body; a failure happens only for a fixture the loader cannot supply |
| Resolver.DefaultStatusIsOk | test/functional-tests/App.test.js:34-49 | a double without `response` or without `status` answers 200 |
| Resolver.BareDoubleAnswersOk | test/functional-tests/App.test.js:18-32 | a double holding only a request answers 200 with no body |
| Resolver.Receive | test/functional-tests/App.test.js:74-118 | the test client parses any text body that reads as JSON into that value, whatever its content type, and keeps any other text verbatim; no body and a streamed file are read as such |
| Resolver.StringDataReadBack | test/functional-tests/App.test.js:74-96 | string `data` is sent verbatim with content type `text/html; charset=utf-8`, and the client receives it verbatim unless the text itself reads as JSON |
| Resolver.JsonLookingStringData | test/functional-tests/App.test.js:74-96 | string `data` whose text reads as JSON (such as `"42"`) reaches the client as that JSON value, although it is sent as `text/html` |
| Resolver.StructuredDataReadBack | test/functional-tests/App.test.js:98-118 | non-string `data` reaches the client deep-equal, with content type `application/json; charset=utf-8` |
| Resolver.FixtureReadBack | test/functional-tests/App.test.js:309-337 | a fixture's parsed contents reach the client deep-equal, as JSON, with the double's status (200 by default) |
| Resolver.MissingFixtureFails | test/functional-tests/App.test.js:311-313 | when the named fixture cannot be loaded from the fixtures folder, that resolution fails with FixtureNotFound naming folder and file |
| Resolver.RedirectTarget | test/functional-tests/App.test.js:162-210 | `status` 301 or 302 with `redirectURL` answers that status with a Location header equal to `redirectURL` and no body |
| Resolver.JavascriptAttachment | test/functional-tests/App.test.js:212-256 | an attachment ending in `.js` answers 200, `application/javascript; charset=UTF-8`, and the client receives that file's contents |
| Server.New | test/unit-tests/Server.test.js:10-13 | a new server holds no doubles, is not listening, and has port 8001 and fixtures folder `test/fixtures` |
| Server.Load | test/functional-tests/App.test.js:277-290 | `load` refuses exactly the doubles `registerDouble` refuses; otherwise the server's doubles become what `registerDouble` makes of them, and nothing else about the server changes |
| Server.RequestOn | test/unit-tests/Server.test.js:71-82 | `request(method, url)` on a server answers NotFound exactly when no double has the key, otherwise that double's `response`; a miss also leaves a 404 answer in the server's `response` property |
| Server.UnmatchedRequestLeaves404 | test/unit-tests/Server.test.js:71-76 | on a new server, `request` misses and `server.response.status` is 404 |
| Server.Start | test/unit-tests/Server.test.js:15-28 | `start` listens on the given port, or 8001 when none is given, with the same doubles |
| Server.Stop | test/functional-tests/App.test.js:14-16 | `stop` ends listening and keeps the doubles, port and folder |
| Server.RegisterAll | test/unit-tests/Server.test.js:36-44 | registering a list of valid doubles in turn keeps the registry well-formed with unique keys |
| Server.LastWithKey | test/unit-tests/Server.test.js:47-66 | the last double of a list with a given key, and absent exactly when none has it |
| Server.LookupAfterRegisterAll | test/unit-tests/Server.test.js:36-66 | after a bulk registration every key yields the last double given for it, or what it yielded before |
| Server.Serve | test/functional-tests/App.test.js:258-290 | port is `httpPort` or 8001, fixtures folder is `fixturesFolder` or `test/fixtures`, the server listens, doubles stay when the config carries none, and a malformed `doubles` is refused exactly when it is not an array of doubles |
| Server.ServeRegistersConfigDoubles | test/unit-tests/Server.test.js:36-44 | after `serve`, each key yields the config's last double for it, or the previously registered one |
| Server.ReserveReplaces | test/unit-tests/Server.test.js:47-66 | serve, stop, then serve a config whose double has an already served key: that key now yields the new double |
| Server.ServeThenFetch | test/unit-tests/Server.test.js:36-44 | on a new server, serving one double on port 8001 makes the listener answer that double's method and path with that double's resolution |
| Server.ReserveThenFetch | test/unit-tests/Server.test.js:47-66 | on a new server, serve a double, stop, serve another with the same key: the listener on port 8001 answers that key's request with the new double's resolution |
| Server.IndexOfChar | test/functional-tests/App.test.js:263-265 | the first position of a character in a url, absent exactly when it does not occur |
| Server.PathOfAbsoluteUrl | test/functional-tests/App.test.js:263-265 | the route of `scheme://host` plus a path is that path whatever the host and port |
| Server.PathOfOrigin | test/functional-tests/App.test.js:263-265 | a url that is only `scheme://host` is routed as `/` |
| Server.RouteAfterRemove | test/unit-tests/Server.test.js:92-122 | after `removeAllDoublesWithUri(url)`, the listener dispatches to the first double in registration order that keeps its place and matches, and to none exactly when no such double exists |
| Server.Route | test/functional-tests/App.test.js:130-159 | the listener dispatches to the first registered double whose method and url path match; none exactly when no double matches |
| Server.Fetch | test/functional-tests/App.test.js:120-128 | a request is refused unless the server listens on that port; with no matching double it is answered 404, otherwise with the matched double's resolved response |
| Server.RouteToOnlyMatch | test/functional-tests/App.test.js:130-159 | the one double whose route matches is the one dispatched to |
| Server.LoadThenServe | test/functional-tests/App.test.js:277-290 | a double loaded before a doubles-free `serve` is answered on the configured port |
| Server.StopThenStart | test/functional-tests/App.test.js:10-16 | after `stop` requests are refused; `start` on the same port answers exactly as before |
| Server.FreshServerAnswersNotFound | test/unit-tests/Server.test.js:18-22 | a new server started without a port answers 404 on port 8001 |
| Scenarios.ShapeChecks | test/unit-tests/Server.test.js:172-218 | the literal objects of the shape-check tests are, or are not, doubles and arrays of doubles as the tests expect |
| Scenarios.DigitStringData | test/functional-tests/App.test.js:74-96 | string data `"007"` reaches the client as the text `007`, and `"42"` as the number 42 |
| Scenarios.ServeTwo | test/functional-tests/App.test.js:130-152 | serving two doubles with different keys on a new server registers both, in order |
| Scenarios.ServeTwoSelects | test/functional-tests/App.test.js:130-159 | with two doubles served, a request that only the second matches is answered by the second |
| Scenarios.SelectsCorrectDouble | test/functional-tests/App.test.js:130-159 | a GET of `/simpleDoubleGet2` is answered 200 with `simpleDouble2Payload` as HTML text |
| Scenarios.FixtureFromDefaultFolder | test/functional-tests/App.test.js:339-365 | without `fixturesFolder` the fixture is read from `test/fixtures` and served 200 as JSON, deep-equal to its contents |
| Scenarios.ServePorts | test/functional-tests/App.test.js:258-266 | `serve()` listens on 8001 and `serve({httpPort: 8002})` on 8002, keeping the loaded doubles |

## Left out

- HTTP transport (express routing, sockets, the client's requests, following a redirect to another
  host): it is I/O. The listener is modelled as `Fetch` from (port, method, path) to a response.
- Resolver.Receive: the client's JSON parsing is the model's `Parse`. Like `JSON.parse` it refuses a
  leading zero (`"007"`) and a raw control character inside a string literal, and it decodes the
  escapes `\"`, `\\`, `\/`, `\b`, `\f`, `\n`, `\r`, `\t` and `\uXXXX`. It accepts less than
  `JSON.parse`: no whitespace between tokens, no fractions or exponents, and no `\uXXXX` escape of
  a surrogate, so a surrogate pair is refused. A string body such as `" 1"`, `"1.5"` or
  `"\ud83d\ude00"` is therefore read here as text, where the client would parse it.
- Resolver.JsonLookingStringData: where `Parse` accepts a text, `JSON.parse` accepts it too and
  yields the same value, with three exceptions that JavaScript numbers and objects cause:
  - `-0` stays negative zero in JavaScript.
  - An integer beyond 2^53 loses precision.
  - A repeated object key keeps only its last value.
- Doubles.Upper: methods are upper-cased in ASCII only. JavaScript's `toUpperCase` also folds
  non-ASCII letters; the standard HTTP methods are plain ASCII.
- Server.RequestOn: the tests fix only the 404 a miss leaves in `server.response`. What a hit does
  to that property is not specified, and the model leaves it unchanged.
- Reading fixture files: the loader is a function parameter (`FixtureLoader`). It yields `None` for
  a missing file or unparsable contents, so FixtureNotFound and FixtureParseError are one error here.
- Streaming attachments: the body is identified by the file's path (`FileStream(path)`). A missing
  attachment file is not modelled, because it only shows while streaming.
- Port binding, port-in-use failures, and concurrency or draining on `stop`: the lifecycle is a
  listening flag and the configured port.
- Resolver.MimeFor: only the `.js` mapping is known; every other extension gets
  `application/octet-stream` instead of a general extension-to-type table.
- Json.Serialize: covers null, booleans, integers, strings, arrays and objects with no whitespace.
  It escapes as `JSON.stringify` does: `\"` and `\\`, the short escapes `\b`, `\t`, `\n`, `\f`, `\r`,
  and `\u00XX` with lower-case hexadecimal for every other character below U+0020. Floating-point
  numbers are not modelled.
- Json.JObject: an object is a sequence of members, so it may repeat a key and may list its keys in
  any order. A JavaScript object can do neither: its keys are unique, and integer-like keys come
  first in ascending order. For such values `Serialize` writes texts `JSON.stringify` never writes,
  and the round-trip lemmas still hold for them. No well-formedness predicate restricts objects.
- Doubles.IsADouble: a property is either present or absent. JavaScript truthiness (an empty-string
  url) and non-string `url`/`method` values cannot be represented.
- Server.Serve: a refused config returns the error without a new server state. Whether the earlier
  listener was already stopped at that point is not modelled. A config whose `doubles` is the empty
  array is refused with `MalformedDouble` rather than served with no new doubles, because
  `isArrayOfDoubles` is false for `[]`.
- Server.PathOf: query strings, express's tolerance of a trailing slash, and its default
  case-insensitive path matching are not modelled: a path must match exactly.
- The test doubles module (`testDoubles`) is not part of this model. The unit-test lemmas are stated
  for any doubles with the relations the tests rely on: same key, same url with another method, and
  status 301. The check that `request` returns an object with a `content` property
  (test/unit-tests/Server.test.js:84-89) depends only on that module's contents.

=== FILE: doubles.dfy ===
/**
 * The test double: one request-matching rule plus the description of the
 * response it answers with, and the duck-typed shape checks the server applies
 * to the plain objects a test suite hands it.
 */
module Doubles {
  import opened Wrappers
  import opened Json

  /** `request` of a double. Both properties are optional in the object a test writes. */
  datatype RequestRule = RequestRule(httpMethod: Option<string>, url: Option<string>)

  /** `response` of a double. */
  datatype ResponseSpec = ResponseSpec(
    status: Option<int>,
    data: Option<Json>,
    redirectURL: Option<string>,
    fixture: Option<string>)

  /** `attachment` of a double: the file served as the body. */
  datatype Attachment = Attachment(pathToFile: string)

  /** A double as the test suite writes it; every property may be missing. */
  datatype Double = Double(
    request: Option<RequestRule>,
    response: Option<ResponseSpec>,
    attachment: Option<Attachment>)
  {
    /** The double carries `request.url`, the least it needs to be registered. */
    predicate WellFormed() {
      request.Some? && request.value.url.Some?
    }
  }

  /** The identity of a registered double: its upper-cased method and its exact url. */
  datatype Key = Key(httpMethod: string, url: string)

  const DefaultMethod: string := "GET"

  const OkStatus: int := 200
  const NotFoundStatus: int := 404

  /** The status a `response` asks for: its `status`, or 200 when either is missing. */
  function ResponseStatus(response: Option<ResponseSpec>): int {
    if response.Some? then response.value.status.GetOr(OkStatus) else OkStatus
  }

  /** The status a double asks for. */
  function StatusFor(d: Double): int {
    ResponseStatus(d.response)
  }

  /** The error `registerDouble` throws, and `serve` for a config whose doubles are malformed. */
  datatype Error =
    | MalformedDouble
    | FixtureNotFound(folder: string, name: string)

  /** The message an error carries, where one is fixed: only `registerDouble`'s is. */
  function Message(e: Error): Option<string> {
    match e
    case MalformedDouble => Some("Double missing request property.")
    case FixtureNotFound(_, _) => None
  }

  function UpperChar(c: char): (u: char)
    ensures 'a' <= c <= 'z' ==> u as int == c as int - 32
    ensures !('a' <= c <= 'z') ==> u == c
  {
    if 'a' <= c <= 'z' then (c as int - 32) as char else c
  }

  /** ASCII upper-casing: HTTP methods match whatever their case. */
  function Upper(s: string): (u: string)
    ensures |u| == |s|
    ensures forall i :: 0 <= i < |s| ==> u[i] == UpperChar(s[i])
  {
    seq(|s|, i requires 0 <= i < |s| => UpperChar(s[i]))
  }

  function NormalizeMethod(httpMethod: Option<string>): string {
    Upper(httpMethod.GetOr(DefaultMethod))
  }

  function KeyOf(d: Double): Key
    requires d.WellFormed()
  {
    Key(NormalizeMethod(d.request.value.httpMethod), d.request.value.url.value)
  }

  function UrlOf(d: Double): string
    requires d.WellFormed()
  {
    d.request.value.url.value
  }

  /**
   * The values the shape checks can be handed: `undefined`, a primitive, an
   * object (seen through the properties a double may carry; `{}` is an object
   * with none of them) or an array.
   */
  datatype JsValue =
    | Undefined
    | Primitive
    | Object(fields: Double)
    | Array(elements: seq<JsValue>)

  /** `Server.isADouble`: a value a key can be taken from, as `registerDouble` demands. */
  function IsADouble(x: JsValue): (b: bool)
    ensures b <==> x.Object? && x.fields.request.Some? && x.fields.request.value.url.Some?
  {
    x.Object? && x.fields.WellFormed()
  }

  /** `Server.isArrayOfDoubles`: a non-empty array every element of which is a double. */
  function IsArrayOfDoubles(x: JsValue): (b: bool)
    ensures b ==> x.Array? && |x.elements| > 0
    ensures x.Array? ==>
              (!b <==> |x.elements| == 0 || exists i :: 0 <= i < |x.elements| && !IsADouble(x.elements[i]))
  {
    x.Array? && |x.elements| > 0 && forall i :: 0 <= i < |x.elements| ==> IsADouble(x.elements[i])
  }

  /** The validating factory: a plain value becomes a double only when it has the shape of one. */
  function ToDouble(x: JsValue): (r: Result<Double, Error>)
    ensures r.Success? <==> IsADouble(x)
    ensures r.Success? ==> r.value.WellFormed() && x == Object(r.value)
    ensures r.Failure? ==> r.error == MalformedDouble
  {
    match x
    case Object(d) => if d.WellFormed() then Success(d) else Failure(MalformedDouble)
    case _ => Failure(MalformedDouble)
  }

  /** The bulk factory: every element of a valid array becomes a double, in order. */
  function ToDoubles(x: JsValue): (r: Result<seq<Double>, Error>)
    ensures r.Success? <==> IsArrayOfDoubles(x)
    ensures r.Success? ==> |r.value| == |x.elements|
    ensures r.Success? ==> forall i :: 0 <= i < |r.value| ==>
                             r.value[i].WellFormed() && x.elements[i] == Object(r.value[i])
  {
    if IsArrayOfDoubles(x) then
      Success(seq(|x.elements|, i requires 0 <= i < |x.elements| => ToDouble(x.elements[i]).value))
    else
      Failure(MalformedDouble)
  }
}

=== FILE: json.dfy ===
/**
 * Structured payloads of the stub server: the values a double's `response.data`
 * or a fixture file may hold, together with the wire encoding the server writes
 * for them (JavaScript's `JSON.stringify` without spacing) and the decoding the
 * client applies to a body served as `application/json`.
 */
module Json {
  import opened Wrappers

  datatype Json =
    | JNull
    | JBool(b: bool)
    | JNumber(n: int)
    | JString(s: string)
    | JArray(items: seq<Json>)
    | JObject(members: seq<Member>)

  datatype Member = Member(key: string, value: Json)

  // ---------------------------------------------------------------------------
  // Encoding
  // ---------------------------------------------------------------------------

  predicate IsDigit(c: char) {
    '0' <= c <= '9'
  }

  function DigitChar(d: nat): (c: char)
    requires d < 10
    ensures IsDigit(c) && c as int - '0' as int == d
  {
    ('0' as int + d) as char
  }

  /** Decimal digits of `n`, most significant first, without leading zeros. */
  function NatToDigits(n: nat): string
    decreases n
  {
    if n < 10 then [DigitChar(n)] else NatToDigits(n / 10) + [DigitChar(n % 10)]
  }

  function IntToText(n: int): string {
    if n < 0 then "-" + NatToDigits(-n) else NatToDigits(n)
  }

  /** The letter of the short escape for a control character, where JSON has one. */
  function ShortName(c: char): Option<char> {
    if c == 8 as char then Some('b')
    else if c == 9 as char then Some('t')
    else if c == 10 as char then Some('n')
    else if c == 12 as char then Some('f')
    else if c == 13 as char then Some('r')
    else None
  }

  /** Lower-case hexadecimal digit. */
  function HexChar(d: nat): (c: char)
    requires d < 16
    ensures HexValue(c) == Some(d)
  {
    if d < 10 then DigitChar(d) else ('a' as int + d - 10) as char
  }

  /**
   * `JSON.stringify`'s escaping inside a string literal: a quote and a backslash
   * get a backslash, the control characters with a short escape get it, and
   * every other character below U+0020 becomes `\u00` and two hexadecimal digits.
   */
  function EscapeChar(c: char): (e: string)
    ensures |e| > 0 && e[0] != '"'
    ensures c as int < 0x20 || c == '"' || c == '\\' <==> e[0] == '\\'
  {
    if c == '"' || c == '\\' then ['\\', c]
    else if ShortName(c).Some? then ['\\', ShortName(c).value]
    else if c as int < 0x20 then ['\\', 'u', '0', '0', HexChar(c as int / 16), HexChar(c as int % 16)]
    else [c]
  }

  function Escape(s: string): string {
    if |s| == 0 then "" else EscapeChar(s[0]) + Escape(s[1..])
  }

  function Quote(s: string): string {
    "\"" + Escape(s) + "\""
  }

  /**
   * `JSON.stringify` with no whitespace. The first character announces the
   * kind of value, which is what a reader dispatches on.
   */
  function Serialize(v: Json): (r: string)
    ensures |r| > 0
    ensures v.JNumber? <==> r[0] == '-' || IsDigit(r[0])
    ensures v.JString? <==> r[0] == '"'
    ensures v.JArray? <==> r[0] == '['
    ensures v.JObject? <==> r[0] == '{'
    ensures v.JNull? ==> r == "null"
    ensures v.JBool? ==> r == if v.b then "true" else "false"
    decreases v
  {
    match v
    case JNull => "null"
    case JBool(b) => if b then "true" else "false"
    case JNumber(n) =>
      NatToDigitsShape(if n < 0 then -n else n);
      IntToText(n)
    case JString(s) => Quote(s)
    case JArray(items) => "[" + SerializeItems(items) + "]"
    case JObject(members) => "{" + SerializeMembers(members) + "}"
  }

  /** The elements of an array separated by commas. */
  function SerializeItems(items: seq<Json>): string
    decreases items
  {
    if |items| == 0 then ""
    else if |items| == 1 then Serialize(items[0])
    else Serialize(items[0]) + "," + SerializeItems(items[1..])
  }

  /** The `"key":value` pairs of an object separated by commas. */
  function SerializeMembers(members: seq<Member>): string
    decreases members
  {
    if |members| == 0 then ""
    else if |members| == 1 then SerializeMember(members[0])
    else SerializeMember(members[0]) + "," + SerializeMembers(members[1..])
  }

  function SerializeMember(m: Member): string
    decreases m
  {
    Quote(m.key) + ":" + Serialize(m.value)
  }

  // ---------------------------------------------------------------------------
  // Decoding (what the client does with an `application/json` body)
  // ---------------------------------------------------------------------------

  /** Length of the longest prefix of `s` made of decimal digits. */
  function DigitRun(s: string): (k: nat)
    ensures k <= |s|
    ensures forall i :: 0 <= i < k ==> IsDigit(s[i])
    ensures k == |s| || !IsDigit(s[k])
  {
    if |s| == 0 || !IsDigit(s[0]) then 0 else 1 + DigitRun(s[1..])
  }

  function DigitsValue(ds: string): nat
    requires forall i :: 0 <= i < |ds| ==> IsDigit(ds[i])
  {
    if |ds| == 0 then 0
    else DigitsValue(ds[..|ds| - 1]) * 10 + DigitValue(ds[|ds| - 1])
  }

  function DigitValue(c: char): (d: nat)
    requires IsDigit(c)
    ensures d < 10
  {
    c as int - '0' as int
  }

  /** At least one digit: the longest such run, as a number. A leading zero must stand alone. */
  function ParseNatural(s: string): (r: Option<(nat, string)>)
    ensures r.Some? ==> |r.value.1| < |s|
    ensures r.Some? ==> NoLeadingZero(s[..|s| - |r.value.1|])
  {
    var k := DigitRun(s);
    if k == 0 || (k > 1 && s[0] == '0') then None else Some((DigitsValue(s[..k]), s[k..]))
  }

  /** An optional minus sign followed by at least one digit. */
  function ParseNumber(s: string): (r: Option<(Json, string)>)
    ensures r.Some? ==> |r.value.1| < |s| && r.value.0.JNumber?
  {
    if |s| > 0 && s[0] == '-' then
      match ParseNatural(s[1..])
      case None => None
      case Some((m, rest)) => Some((JNumber(-(m as int)), rest))
    else
      match ParseNatural(s)
      case None => None
      case Some((m, rest)) => Some((JNumber(m), rest))
  }

  /** `word` at the front of `s` stands for the constant `v`. */
  function ParseWord(s: string, word: string, v: Json): (r: Option<(Json, string)>)
    requires |word| > 0
    ensures r.Some? ==> |r.value.1| < |s| && r.value.0 == v
  {
    if |word| <= |s| && s[..|word|] == word then Some((v, s[|word|..])) else None
  }

  function HexValue(c: char): (r: Option<nat>)
    ensures r.Some? ==> r.value < 16
  {
    if '0' <= c <= '9' then Some(c as int - '0' as int)
    else if 'a' <= c <= 'f' then Some(c as int - 'a' as int + 10)
    else if 'A' <= c <= 'F' then Some(c as int - 'A' as int + 10)
    else None
  }

  /** The code unit named by the four hexadecimal digits of a `\uXXXX` escape. */
  function Hex4(h: string): (r: Option<nat>)
    requires |h| == 4
    ensures r.Some? ==> r.value < 0x10000
  {
    match (HexValue(h[0]), HexValue(h[1]), HexValue(h[2]), HexValue(h[3]))
    case (Some(a), Some(b), Some(c), Some(d)) => Some(((a * 16 + b) * 16 + c) * 16 + d)
    case _ => None
  }

  /** The character a one-letter escape `\x` stands for, when `x` is one of JSON's escape letters. */
  function ShortEscape(x: char): Option<char> {
    if x == '"' || x == '\\' || x == '/' then Some(x)
    else if x == 'b' then Some(8 as char)
    else if x == 't' then Some(9 as char)
    else if x == 'n' then Some(10 as char)
    else if x == 'f' then Some(12 as char)
    else if x == 'r' then Some(13 as char)
    else None
  }

  /**
   * The characters of a string literal up to its closing quote (opening quote
   * already consumed). A raw character below U+0020 is refused, as `JSON.parse`
   * does; escapes are decoded.
   */
  function ParseStringBody(s: string): (r: Option<(string, string)>)
    ensures r.Some? ==> |r.value.1| < |s|
  {
    if |s| == 0 then None
    else if s[0] == '"' then Some(("", s[1..]))
    else if s[0] as int < 0x20 then None
    else if s[0] == '\\' then
      if |s| < 2 then None
      else if s[1] == 'u' then
        if |s| < 6 then None
        else
          match Hex4(s[2..6])
          case None => None
          case Some(code) =>
            if 0xD800 <= code < 0xE000 then None
            else
              match ParseStringBody(s[6..])
              case None => None
              case Some((body, rest)) => Some(([code as char] + body, rest))
      else
        match ShortEscape(s[1])
        case None => None
        case Some(c) =>
          match ParseStringBody(s[2..])
          case None => None
          case Some((body, rest)) => Some(([c] + body, rest))
    else
      match ParseStringBody(s[1..])
      case None => None
      case Some((body, rest)) => Some(([s[0]] + body, rest))
  }

  function ParseValue(s: string): (r: Option<(Json, string)>)
    ensures r.Some? ==> |r.value.1| < |s|
    decreases |s|, 0
  {
    if |s| == 0 then None
    else if s[0] == '-' || IsDigit(s[0]) then ParseNumber(s)
    else if s[0] == 'n' then ParseWord(s, "null", JNull)
    else if s[0] == 't' then ParseWord(s, "true", JBool(true))
    else if s[0] == 'f' then ParseWord(s, "false", JBool(false))
    else if s[0] == '"' then
      match ParseStringBody(s[1..])
      case None => None
      case Some((str, rest)) => Some((JString(str), rest))
    else if s[0] == '[' then
      if |s| > 1 && s[1] == ']' then Some((JArray([]), s[2..]))
      else
        match ParseItems(s[1..])
        case None => None
        case Some((items, rest)) => Some((JArray(items), rest))
    else if s[0] == '{' then
      if |s| > 1 && s[1] == '}' then Some((JObject([]), s[2..]))
      else
        match ParseMembers(s[1..])
        case None => None
        case Some((members, rest)) => Some((JObject(members), rest))
    else None
  }

  /** One or more comma-separated values closed by `]`. */
  function ParseItems(s: string): (r: Option<(seq<Json>, string)>)
    ensures r.Some? ==> |r.value.1| < |s|
    decreases |s|, 1
  {
    match ParseValue(s)
    case None => None
    case Some((v, rest)) =>
      if |rest| == 0 then None
      else if rest[0] == ']' then Some(([v], rest[1..]))
      else if rest[0] == ',' then
        match ParseItems(rest[1..])
        case None => None
        case Some((vs, rest')) => Some(([v] + vs, rest'))
      else None
  }

  /** One or more comma-separated `"key":value` pairs closed by `}`. */
  function ParseMembers(s: string): (r: Option<(seq<Member>, string)>)
    ensures r.Some? ==> |r.value.1| < |s|
    decreases |s|, 1
  {
    if |s| == 0 || s[0] != '"' then None
    else
      match ParseStringBody(s[1..])
      case None => None
      case Some((key, r1)) =>
        if |r1| == 0 || r1[0] != ':' then None
        else
          match ParseValue(r1[1..])
          case None => None
          case Some((v, r2)) =>
            if |r2| == 0 then None
            else if r2[0] == '}' then Some(([Member(key, v)], r2[1..]))
            else if r2[0] == ',' then
              match ParseMembers(r2[1..])
              case None => None
              case Some((ms, r3)) => Some(([Member(key, v)] + ms, r3))
            else None
  }

  /**
   * `JSON.parse`: one value spanning the whole text. As in `Serialize`, the
   * first character decides which kind of value is read.
   */
  function Parse(text: string): (r: Option<Json>)
    ensures r.Some? ==> |text| > 0
    ensures r.Some? ==> (r.value.JNumber? <==> text[0] == '-' || IsDigit(text[0]))
    ensures r.Some? ==> (r.value.JString? <==> text[0] == '"')
    ensures r.Some? ==> (r.value.JArray? <==> text[0] == '[')
    ensures r.Some? ==> (r.value.JObject? <==> text[0] == '{')
  {
    match ParseValue(text)
    case Some((v, rest)) => if |rest| == 0 then Some(v) else None
    case None => None
  }

  // ---------------------------------------------------------------------------
  // What the reader refuses, as `JSON.parse` does
  // ---------------------------------------------------------------------------

  /** A zero followed by another digit is not a JSON number, signed or not. */
  lemma LeadingZeroRejected(t: string)
    requires |t| > 0 && IsDigit(t[0])
    ensures Parse(['0'] + t).None?
    ensures Parse(['-', '0'] + t).None?
  {
    var s := ['0'] + t;
    assert s[1..] == t;
    assert DigitRun(s) > 1;
    assert ParseNatural(s).None?;
    var m := ['-'] + s;
    assert m[1..] == s;
    assert ParseNumber(m).None?;
  }

  /** Characters a string literal holds as themselves: no quote, no backslash, no control. */
  predicate PlainText(p: string) {
    forall i :: 0 <= i < |p| ==> p[i] != '"' && p[i] != '\\' && p[i] as int >= 0x20
  }

  /** The body reader refuses a control character that follows any run of plain characters. */
  lemma {:induction false} BodyRefusesControl(p: string, c: char, t: string)
    requires PlainText(p) && c as int < 0x20
    ensures ParseStringBody(p + [c] + t).None?
    decreases |p|
  {
    var s := p + [c] + t;
    if |p| == 0 {
      assert s[0] == c;
    } else {
      assert s[0] == p[0];
      assert s[1..] == p[1..] + [c] + t;
      BodyRefusesControl(p[1..], c, t);
    }
  }

  /** A raw character below U+0020 anywhere in the plain part of a string literal is refused. */
  lemma RawControlRejected(p: string, c: char, t: string)
    requires PlainText(p) && c as int < 0x20
    ensures Parse(['"'] + p + [c] + t).None?
  {
    var s := ['"'] + p + [c] + t;
    assert s[1..] == p + [c] + t;
    BodyRefusesControl(p, c, t);
  }

  // ---------------------------------------------------------------------------
  // Round trip: the client reads back exactly the value the server encoded
  // ---------------------------------------------------------------------------

  /** What may follow a value inside an encoding: nothing, a comma or a closing bracket. */
  predicate Delimited(rest: string) {
    |rest| == 0 || rest[0] == ',' || rest[0] == ']' || rest[0] == '}'
  }

  predicate AllDigits(ds: string) {
    forall i :: 0 <= i < |ds| ==> IsDigit(ds[i])
  }

  /** JSON's number grammar: a zero is either the whole run of digits or not its first digit. */
  predicate NoLeadingZero(ds: string) {
    |ds| <= 1 || ds[0] != '0'
  }

  lemma {:induction false} NatToDigitsShape(n: nat)
    ensures |NatToDigits(n)| > 0 && AllDigits(NatToDigits(n)) && NoLeadingZero(NatToDigits(n))
    ensures n > 0 ==> NatToDigits(n)[0] != '0'
    decreases n
  {
    if n >= 10 {
      NatToDigitsShape(n / 10);
    }
  }

  lemma {:induction false} DigitsValueOfNat(n: nat)
    ensures AllDigits(NatToDigits(n)) && DigitsValue(NatToDigits(n)) == n
    decreases n
  {
    NatToDigitsShape(n);
    var ds := NatToDigits(n);
    if n >= 10 {
      DigitsValueOfNat(n / 10);
      assert ds[..|ds| - 1] == NatToDigits(n / 10);
    } else {
      assert ds[..0] == [];
    }
  }

  lemma {:induction false} DigitRunOfDigits(ds: string, rest: string)
    requires AllDigits(ds)
    requires |rest| == 0 || !IsDigit(rest[0])
    ensures DigitRun(ds + rest) == |ds|
    decreases |ds|
  {
    if |ds| > 0 {
      assert (ds + rest)[1..] == ds[1..] + rest;
      DigitRunOfDigits(ds[1..], rest);
    }
  }

  /** Digits without a leading zero, followed by a delimiter, decode to their value and leave the delimiter. */
  lemma NaturalDecode(ds: string, rest: string)
    requires |ds| > 0 && AllDigits(ds) && NoLeadingZero(ds) && Delimited(rest)
    ensures ParseNatural(ds + rest) == Some((DigitsValue(ds), rest))
  {
    var s := ds + rest;
    DigitRunOfDigits(ds, rest);
    assert s[..|ds|] == ds;
    assert s[|ds|..] == rest;
  }

  /** Unsigned digits followed by a delimiter decode to their value. */
  lemma DigitsDecode(ds: string, rest: string)
    requires |ds| > 0 && AllDigits(ds) && NoLeadingZero(ds) && Delimited(rest)
    ensures ParseNumber(ds + rest) == Some((JNumber(DigitsValue(ds)), rest))
  {
    NaturalDecode(ds, rest);
    assert (ds + rest)[0] == ds[0];
  }

  /** A minus sign, digits and a delimiter decode to the negated value. */
  lemma NegativeDigitsDecode(ds: string, rest: string, s: string)
    requires |ds| > 0 && AllDigits(ds) && NoLeadingZero(ds) && Delimited(rest)
    requires |s| > 0 && s[0] == '-' && s[1..] == ds + rest
    ensures ParseNumber(s) == Some((JNumber(-(DigitsValue(ds) as int)), rest))
  {
    NaturalDecode(ds, rest);
  }

  /** The text of a negative number is a minus sign and the digits of its magnitude. */
  lemma NegativeText(n: int, rest: string)
    requires n < 0
    ensures var s := IntToText(n) + rest; |s| > 0 && s[0] == '-' && s[1..] == NatToDigits(-n) + rest
  {
    var s := IntToText(n) + rest;
    assert s == ['-'] + (NatToDigits(-n) + rest);
  }

  lemma NegativeRoundTrip(n: int, rest: string)
    requires Delimited(rest) && n < 0
    ensures ParseNumber(IntToText(n) + rest) == Some((JNumber(n), rest))
  {
    var ds := NatToDigits(-n);
    NatToDigitsShape(-n);
    DigitsValueOfNat(-n);
    NegativeText(n, rest);
    NegativeDigitsDecode(ds, rest, IntToText(n) + rest);
    assert -(DigitsValue(ds) as int) == n;
  }

  lemma NaturalRoundTrip(n: nat, rest: string)
    requires Delimited(rest)
    ensures ParseNumber(IntToText(n) + rest) == Some((JNumber(n), rest))
  {
    NatToDigitsShape(n);
    DigitsValueOfNat(n);
    assert IntToText(n) == NatToDigits(n);
    DigitsDecode(NatToDigits(n), rest);
  }

  lemma NumberRoundTrip(n: int, rest: string)
    requires Delimited(rest)
    ensures ParseNumber(IntToText(n) + rest) == Some((JNumber(n), rest))
  {
    if n < 0 {
      NegativeRoundTrip(n, rest);
    } else {
      NaturalRoundTrip(n, rest);
    }
  }

  /** The `\u00XX` escape of a control character decodes back to it. */
  lemma UnicodeEscapeDecodes(c: char, tail: string)
    requires c as int < 0x20 && c != '"' && c != '\\' && ShortName(c).None?
    ensures ParseStringBody(EscapeChar(c) + tail) ==
            match ParseStringBody(tail)
            case None => None
            case Some((body, rest)) => Some(([c] + body, rest))
  {
    var s := EscapeChar(c) + tail;
    var h := [ '0', '0', HexChar(c as int / 16), HexChar(c as int % 16)];
    assert s[0] == '\\' && s[1] == 'u';
    assert s[2..6] == h;
    assert Hex4(h) == Some(c as int);
    assert s[6..] == tail;
  }

  /** Decoding an escaped character: the character itself, then whatever follows decodes as before. */
  lemma EscapeCharDecodes(c: char, tail: string)
    ensures ParseStringBody(EscapeChar(c) + tail) ==
            match ParseStringBody(tail)
            case None => None
            case Some((body, rest)) => Some(([c] + body, rest))
  {
    var s := EscapeChar(c) + tail;
    if c == '"' || c == '\\' || ShortName(c).Some? {
      assert s == [s[0], s[1]] + tail;
      assert s[2..] == tail;
    } else if c as int < 0x20 {
      UnicodeEscapeDecodes(c, tail);
    } else {
      assert s[1..] == tail;
    }
  }

  lemma {:induction false} StringRoundTrip(str: string, rest: string)
    ensures ParseStringBody(Escape(str) + "\"" + rest) == Some((str, rest))
    decreases |str|
  {
    var s := Escape(str) + "\"" + rest;
    if |str| == 0 {
      assert s == "\"" + rest;
      assert s[1..] == rest;
    } else {
      StringRoundTrip(str[1..], rest);
      var tail := Escape(str[1..]) + "\"" + rest;
      assert s == EscapeChar(str[0]) + tail;
      EscapeCharDecodes(str[0], tail);
      assert [str[0]] + str[1..] == str;
    }
  }

  /** Every encoding is non-empty and starts with a character that cannot close a container. */
  lemma SerializeStart(v: Json)
    ensures |Serialize(v)| > 0
    ensures Serialize(v)[0] != ']' && Serialize(v)[0] != '}' && Serialize(v)[0] != ','
  {
    match v
    case JNumber(n) =>
      var m: nat := if n < 0 then -n else n;
      NatToDigitsShape(m);
    case _ =>
  }

  lemma WordRoundTrip(word: string, v: Json, rest: string)
    requires |word| > 0
    ensures ParseWord(word + rest, word, v) == Some((v, rest))
  {
    assert (word + rest)[..|word|] == word;
    assert (word + rest)[|word|..] == rest;
  }

  /** `ParseValue` on an opening bracket followed by elements. */
  lemma ParseValueArray(s: string, items: seq<Json>, rest: string)
    requires |s| > 1 && s[0] == '[' && s[1] != ']'
    requires ParseItems(s[1..]) == Some((items, rest))
    ensures ParseValue(s) == Some((JArray(items), rest))
  {
  }

  /** `ParseValue` on an opening brace followed by members. */
  lemma ParseValueObject(s: string, members: seq<Member>, rest: string)
    requires |s| > 1 && s[0] == '{' && s[1] != '}'
    requires ParseMembers(s[1..]) == Some((members, rest))
    ensures ParseValue(s) == Some((JObject(members), rest))
  {
    var c := s[0];
    assert !(c == '-' || IsDigit(c)) && c != 'n' && c != 't' && c != 'f' && c != '"' && c != '[';
  }

  /** `ParseValue` on an opening quote. */
  lemma ParseValueString(s: string, str: string, rest: string)
    requires |s| > 0 && s[0] == '"'
    requires ParseStringBody(s[1..]) == Some((str, rest))
    ensures ParseValue(s) == Some((JString(str), rest))
  {
  }

  /** `ParseValue` on a minus sign or a digit. */
  lemma ParseValueNumber(s: string)
    requires |s| > 0 && (s[0] == '-' || IsDigit(s[0]))
    ensures ParseValue(s) == ParseNumber(s)
  {
  }

  lemma EmptyContainerRoundTrip(v: Json, rest: string)
    requires v == JArray([]) || v == JObject([])
    ensures ParseValue(Serialize(v) + rest) == Some((v, rest))
  {
    var s := Serialize(v) + rest;
    assert s[2..] == rest;
  }

  lemma {:induction false} ArrayRoundTrip(items: seq<Json>, rest: string)
    requires Delimited(rest) && |items| > 0
    ensures ParseValue(Serialize(JArray(items)) + rest) == Some((JArray(items), rest))
    decreases items, 2
  {
    var body := SerializeItems(items);
    ItemsRoundTrip(items, rest);
    SerializeStart(items[0]);
    assert |body| > 0 && body[0] == Serialize(items[0])[0];
    Bracketed('[', body, ']', rest);
    assert Serialize(JArray(items)) + rest == ['['] + body + [']'] + rest;
    ParseValueArray(['['] + body + [']'] + rest, items, rest);
  }

  lemma QuoteStart(k: string)
    ensures |Quote(k)| > 0 && Quote(k)[0] == '"'
  {
  }

  /** The members of a non-empty object are written starting with the quote of the first key. */
  lemma MembersStart(members: seq<Member>)
    requires |members| > 0
    ensures |SerializeMembers(members)| > 0 && SerializeMembers(members)[0] == '"'
  {
    QuoteStart(members[0].key);
    var first := SerializeMember(members[0]);
    assert first[0] == '"';
  }

  /** A body between an opening and a closing character, followed by `rest`. */
  lemma Bracketed(open: char, body: string, close: char, rest: string)
    ensures var s := [open] + body + [close] + rest; |s| > 0 && s[0] == open && s[1..] == body + [close] + rest
    ensures |body| > 0 ==> ([open] + body + [close] + rest)[1] == body[0]
  {
    var s := [open] + body + [close] + rest;
    assert s == [open] + (body + [close] + rest);
  }

  lemma {:induction false} ObjectRoundTrip(members: seq<Member>, rest: string)
    requires Delimited(rest) && |members| > 0
    ensures ParseValue(Serialize(JObject(members)) + rest) == Some((JObject(members), rest))
    decreases members, 2
  {
    var body := SerializeMembers(members);
    MembersRoundTrip(members, rest);
    MembersStart(members);
    Bracketed('{', body, '}', rest);
    assert Serialize(JObject(members)) + rest == ['{'] + body + ['}'] + rest;
    ParseValueObject(['{'] + body + ['}'] + rest, members, rest);
  }

  lemma StringValueRoundTrip(str: string, rest: string)
    ensures ParseValue(Serialize(JString(str)) + rest) == Some((JString(str), rest))
  {
    var s := Serialize(JString(str)) + rest;
    StringRoundTrip(str, rest);
    assert s == "\"" + (Escape(str) + "\"" + rest);
    assert s[1..] == Escape(str) + "\"" + rest;
    ParseValueString(s, str, rest);
  }

  lemma NumberValueRoundTrip(n: int, rest: string)
    requires Delimited(rest)
    ensures ParseValue(Serialize(JNumber(n)) + rest) == Some((JNumber(n), rest))
  {
    var s := Serialize(JNumber(n)) + rest;
    NumberRoundTrip(n, rest);
    NatToDigitsShape(if n < 0 then -n else n);
    assert s[0] == '-' || IsDigit(s[0]);
    ParseValueNumber(s);
  }

  lemma WordValueRoundTrip(v: Json, rest: string)
    requires v.JNull? || v.JBool?
    ensures ParseValue(Serialize(v) + rest) == Some((v, rest))
  {
    WordRoundTrip(Serialize(v), v, rest);
  }

  /** Decoding an encoded value consumes exactly its encoding. */
  lemma {:induction false} ValueRoundTrip(v: Json, rest: string)
    requires Delimited(rest)
    ensures ParseValue(Serialize(v) + rest) == Some((v, rest))
    decreases v, 3
  {
    match v
    case JNull => WordValueRoundTrip(v, rest);
    case JBool(_) => WordValueRoundTrip(v, rest);
    case JNumber(n) => NumberValueRoundTrip(n, rest);
    case JString(str) => StringValueRoundTrip(str, rest);
    case JArray(items) =>
      if |items| == 0 {
        EmptyContainerRoundTrip(v, rest);
      } else {
        ArrayRoundTrip(items, rest);
      }
    case JObject(members) =>
      if |members| == 0 {
        EmptyContainerRoundTrip(v, rest);
      } else {
        ObjectRoundTrip(members, rest);
      }
  }

  /** One step of `ParseItems`: an element followed by `]` ends the list. */
  lemma ItemsLastStep(s: string, v: Json, tail: string)
    requires ParseValue(s) == Some((v, tail))
    requires |tail| > 0 && tail[0] == ']'
    ensures ParseItems(s) == Some(([v], tail[1..]))
  {
  }

  /** One step of `ParseItems`: an element followed by `,` continues the list. */
  lemma ItemsNextStep(s: string, v: Json, tail: string, vs: seq<Json>, rest: string)
    requires ParseValue(s) == Some((v, tail))
    requires |tail| > 0 && tail[0] == ','
    requires ParseItems(tail[1..]) == Some((vs, rest))
    ensures ParseItems(s) == Some(([v] + vs, rest))
  {
  }

  /** Associativity of concatenation, stated once so that callers need not rediscover it. */
  lemma Regroup(a: string, sep: string, b: string, close: string, rest: string)
    ensures a + sep + b + close + rest == a + (sep + (b + close + rest))
  {
  }

  lemma ItemsLayout(items: seq<Json>, rest: string)
    requires |items| > 1
    ensures SerializeItems(items) + "]" + rest ==
            Serialize(items[0]) + ("," + (SerializeItems(items[1..]) + "]" + rest))
  {
    var a := Serialize(items[0]);
    var b := SerializeItems(items[1..]);
    assert SerializeItems(items) == a + "," + b;
    Regroup(a, ",", b, "]", rest);
  }

  lemma {:induction false} ItemsRoundTrip(items: seq<Json>, rest: string)
    requires |items| > 0
    ensures ParseItems(SerializeItems(items) + "]" + rest) == Some((items, rest))
    decreases items, 0
  {
    var s := SerializeItems(items) + "]" + rest;
    var head := Serialize(items[0]);
    if |items| == 1 {
      var tail := "]" + rest;
      assert s == head + tail by {
        assert SerializeItems(items) == head;
      }
      ValueRoundTrip(items[0], tail);
      assert tail[1..] == rest;
      ItemsLastStep(s, items[0], tail);
      assert [items[0]] == items;
    } else {
      var more := SerializeItems(items[1..]) + "]" + rest;
      var tail := "," + more;
      assert s == head + tail by {
        ItemsLayout(items, rest);
      }
      ValueRoundTrip(items[0], tail);
      ItemsRoundTrip(items[1..], rest);
      assert tail[1..] == more;
      ItemsNextStep(s, items[0], tail, items[1..], rest);
      assert [items[0]] + items[1..] == items;
    }
  }

  /** One step of `ParseMembers`: a key, a colon and a value, followed by `}` or `,`. */
  lemma MemberStep(s: string, key: string, afterKey: string, v: Json, after: string)
    requires |s| > 0 && s[0] == '"'
    requires ParseStringBody(s[1..]) == Some((key, afterKey))
    requires |afterKey| > 0 && afterKey[0] == ':'
    requires ParseValue(afterKey[1..]) == Some((v, after))
    requires |after| > 0
    ensures after[0] == '}' ==> ParseMembers(s) == Some(([Member(key, v)], after[1..]))
    ensures after[0] == ',' ==>
              ParseMembers(s) ==
              match ParseMembers(after[1..])
              case None => None
              case Some((ms, r3)) => Some(([Member(key, v)] + ms, r3))
  {
  }

  /** Where the pieces of the first member lie in an encoded member list. */
  lemma MemberLayout(m: Member, after: string)
    ensures SerializeMember(m) + after ==
            "\"" + (Escape(m.key) + "\"" + (":" + (Serialize(m.value) + after)))
  {
    var k := Escape(m.key);
    var v := Serialize(m.value);
    assert SerializeMember(m) == "\"" + k + "\"" + ":" + v;
  }

  /** Decoding the first member of an encoded member list. */
  lemma FirstMemberRoundTrip(m: Member, after: string)
    requires Delimited(after) && |after| > 0
    ensures after[0] == '}' ==> ParseMembers(SerializeMember(m) + after) == Some(([m], after[1..]))
    ensures after[0] == ',' ==>
              ParseMembers(SerializeMember(m) + after) ==
              match ParseMembers(after[1..])
              case None => None
              case Some((ms, r3)) => Some(([m] + ms, r3))
  {
    var s := SerializeMember(m) + after;
    var afterKey := ":" + (Serialize(m.value) + after);
    MemberLayout(m, after);
    assert s[1..] == Escape(m.key) + "\"" + afterKey;
    StringRoundTrip(m.key, afterKey);
    ValueRoundTrip(m.value, after);
    assert afterKey[1..] == Serialize(m.value) + after;
    MemberStep(s, m.key, afterKey, m.value, after);
  }

  lemma MembersLayout(members: seq<Member>, rest: string)
    requires |members| > 1
    ensures SerializeMembers(members) + "}" + rest ==
            SerializeMember(members[0]) + ("," + (SerializeMembers(members[1..]) + "}" + rest))
  {
    var a := SerializeMember(members[0]);
    var b := SerializeMembers(members[1..]);
    assert SerializeMembers(members) == a + "," + b;
    Regroup(a, ",", b, "}", rest);
  }

  lemma {:induction false} MembersRoundTrip(members: seq<Member>, rest: string)
    requires |members| > 0
    ensures ParseMembers(SerializeMembers(members) + "}" + rest) == Some((members, rest))
    decreases members, 0
  {
    var s := SerializeMembers(members) + "}" + rest;
    var m := members[0];
    if |members| == 1 {
      var after := "}" + rest;
      assert s == SerializeMember(m) + after by {
        assert SerializeMembers(members) == SerializeMember(m);
      }
      FirstMemberRoundTrip(m, after);
      assert after[1..] == rest;
      assert [m] == members;
    } else {
      var more := SerializeMembers(members[1..]) + "}" + rest;
      var after := "," + more;
      assert s == SerializeMember(m) + after by {
        MembersLayout(members, rest);
      }
      FirstMemberRoundTrip(m, after);
      MembersRoundTrip(members[1..], rest);
      assert after[1..] == more;
      assert [m] + members[1..] == members;
    }
  }

  /** A body encoded by the server decodes, as a whole, to the value that was encoded. */
  lemma ParseSerialize(v: Json)
    ensures Parse(Serialize(v)) == Some(v)
  {
    ValueRoundTrip(v, "");
    assert Serialize(v) + "" == Serialize(v);
  }
}

=== FILE: registry.dfy ===
/**
 * The double registry (`allDoubles`): registered doubles in registration
 * order, at most one per (method, url) key.
 */
module DoubleRegistry {
  import opened Wrappers
  import opened Doubles

  type Registry = seq<Double>

  predicate AllWellFormed(reg: Registry) {
    forall i :: 0 <= i < |reg| ==> reg[i].WellFormed()
  }

  /** No two slots share a (method, url) key. */
  predicate UniqueKeys(reg: Registry)
    requires AllWellFormed(reg)
  {
    forall i, j :: 0 <= i < j < |reg| ==> KeyOf(reg[i]) != KeyOf(reg[j])
  }

  /** The invariant every registry the server holds satisfies. */
  predicate Valid(reg: Registry) {
    AllWellFormed(reg) && UniqueKeys(reg)
  }

  predicate HasKey(reg: Registry, k: Key)
    requires AllWellFormed(reg)
  {
    exists i :: 0 <= i < |reg| && KeyOf(reg[i]) == k
  }

  /** `isRegistered(uri)`: some double, whatever its method, has this url. */
  function IsRegistered(reg: Registry, url: string): (b: bool)
    requires AllWellFormed(reg)
    ensures b <==> exists m :: HasKey(reg, Key(m, url))
  {
    UrlMeansSomeKey(reg, url);
    exists i :: 0 <= i < |reg| && UrlOf(reg[i]) == url
  }

  /** A url occurs in the registry exactly when the key of some method with that url does. */
  lemma UrlMeansSomeKey(reg: Registry, url: string)
    requires AllWellFormed(reg)
    ensures (exists i :: 0 <= i < |reg| && UrlOf(reg[i]) == url) <==> exists m :: HasKey(reg, Key(m, url))
  {
    if i :| 0 <= i < |reg| && UrlOf(reg[i]) == url {
      assert HasKey(reg, Key(KeyOf(reg[i]).httpMethod, url));
    }
  }

  /** The first slot holding key `k`, if any. */
  function IndexOfKey(reg: Registry, k: Key): (r: Option<nat>)
    requires AllWellFormed(reg)
    ensures r.Some? ==> r.value < |reg| && KeyOf(reg[r.value]) == k
    ensures r.Some? ==> forall j :: 0 <= j < r.value ==> KeyOf(reg[j]) != k
    ensures r.None? <==> !HasKey(reg, k)
  {
    if |reg| == 0 then None
    else if KeyOf(reg[0]) == k then Some(0)
    else
      match IndexOfKey(reg[1..], k)
      case None => None
      case Some(i) => Some(i + 1)
  }

  /** The double registered under key `k`. */
  function Lookup(reg: Registry, k: Key): (r: Option<Double>)
    requires AllWellFormed(reg)
    ensures r.None? <==> !HasKey(reg, k)
    ensures r.Some? ==> r.value in reg && r.value.WellFormed() && KeyOf(r.value) == k
  {
    match IndexOfKey(reg, k)
    case None => None
    case Some(i) => Some(reg[i])
  }

  /**
   * `registerDouble`: a double without `request.url` is refused; one whose key
   * is already registered takes over that slot; any other is appended.
   */
  function Register(reg: Registry, d: Double): (r: Result<Registry, Error>)
    requires AllWellFormed(reg)
    ensures r.Failure? <==> !d.WellFormed()
    ensures r.Failure? ==> r.error == MalformedDouble
    ensures r.Success? ==> AllWellFormed(r.value) && d in r.value
    ensures r.Success? ==> forall e :: e in r.value ==> e == d || e in reg
    ensures r.Success? ==> |r.value| == if HasKey(reg, KeyOf(d)) then |reg| else |reg| + 1
    ensures r.Success? ==>
              forall i :: 0 <= i < |reg| && KeyOf(reg[i]) != KeyOf(d) ==> r.value[i] == reg[i]
    ensures r.Success? && Valid(reg) ==>
              Valid(r.value) && forall i :: 0 <= i < |r.value| && KeyOf(r.value[i]) == KeyOf(d) ==> r.value[i] == d
  {
    if !d.WellFormed() then Failure(MalformedDouble)
    else
      match IndexOfKey(reg, KeyOf(d))
      case Some(i) =>
        var updated := reg[i := d];
        assert updated[i] == d;
        Success(updated)
      case None => Success(reg + [d])
  }

  /** `removeAllDoublesWithUri(uri)`: drops every double with that url, whatever its method. */
  function RemoveAllWithUrl(reg: Registry, url: string): (r: Registry)
    requires AllWellFormed(reg)
    ensures AllWellFormed(r) && |r| <= |reg|
    ensures forall d :: d in r <==> d in reg && UrlOf(d) != url
    ensures Valid(reg) ==> Valid(r)
  {
    if |reg| == 0 then []
    else
      var tail := RemoveAllWithUrl(reg[1..], url);
      assert forall d :: d in reg[1..] ==> d in reg;
      if UrlOf(reg[0]) == url then tail
      else
        HeadKeyNotInTail(reg, tail);
        [reg[0]] + tail
  }

  /**
   * Removal is a filter that keeps order: it distributes over concatenation,
   * and a single double survives exactly when its url differs.
   */
  lemma {:induction false} RemoveKeepsOrder(a: Registry, b: Registry, url: string)
    requires AllWellFormed(a) && AllWellFormed(b)
    ensures AllWellFormed(a + b)
    ensures RemoveAllWithUrl(a + b, url) == RemoveAllWithUrl(a, url) + RemoveAllWithUrl(b, url)
    ensures |a| == 1 ==> RemoveAllWithUrl(a, url) == if UrlOf(a[0]) == url then [] else a
    decreases |a|
  {
    assert forall i :: 0 <= i < |a + b| ==> (a + b)[i] in a || (a + b)[i] in b;
    if |a| > 0 {
      assert (a + b)[1..] == a[1..] + b;
      RemoveKeepsOrder(a[1..], b, url);
      assert (a + b)[0] == a[0];
      if |a| == 1 {
        assert a[1..] == [];
      }
    } else {
      assert a + b == b;
    }
  }

  /** Under unique keys, no double drawn from the rest of a registry shares its first key. */
  lemma HeadKeyNotInTail(reg: Registry, tail: Registry)
    requires AllWellFormed(reg) && |reg| > 0 && AllWellFormed(tail)
    requires forall d :: d in tail ==> d in reg[1..]
    ensures Valid(reg) ==> Valid(reg[1..])
    ensures Valid(reg) ==> forall j :: 0 <= j < |tail| ==> KeyOf(tail[j]) != KeyOf(reg[0])
  {
    if Valid(reg) {
      forall j | 0 <= j < |tail|
        ensures KeyOf(tail[j]) != KeyOf(reg[0])
      {
        assert tail[j] in reg[1..];
        var m :| 0 <= m < |reg[1..]| && reg[1..][m] == tail[j];
        assert reg[1 + m] == tail[j];
      }
    }
  }

  /** What `request(method, url)` answers: the matched double's `response`, or a miss. */
  datatype Answer = Found(response: Option<ResponseSpec>) | NotFound

  /** The status the server reports for an answer. */
  function StatusOf(a: Answer): int {
    match a
    case NotFound => NotFoundStatus
    case Found(resp) => ResponseStatus(resp)
  }

  /** `request(method, url)`: method compared without regard to case, url exactly. */
  function Request(reg: Registry, httpMethod: string, url: string): (a: Answer)
    requires AllWellFormed(reg)
    ensures a.NotFound? <==> !HasKey(reg, Key(Upper(httpMethod), url))
    ensures a.NotFound? ==> StatusOf(a) == NotFoundStatus
    ensures a.Found? ==> exists d :: d in reg && d.WellFormed() && KeyOf(d) == Key(Upper(httpMethod), url) && a.response == d.response
  {
    match Lookup(reg, Key(Upper(httpMethod), url))
    case None => NotFound
    case Some(d) => Found(d.response)
  }

  // ---------------------------------------------------------------------------
  // The registry behaves as a finite map from keys to doubles
  // ---------------------------------------------------------------------------

  /** Under unique keys, every registered double is what its own key looks up. */
  lemma LookupMember(reg: Registry, d: Double)
    requires Valid(reg) && d in reg
    ensures d.WellFormed() && Lookup(reg, KeyOf(d)) == Some(d)
  {
    var i :| 0 <= i < |reg| && reg[i] == d;
    var j := IndexOfKey(reg, KeyOf(d)).value;
    assert KeyOf(reg[j]) == KeyOf(reg[i]);
    assert !(j < i) && !(i < j);
  }

  /** Registering is a map update: key `KeyOf(d)` now yields `d`, every other key is untouched. */
  lemma LookupAfterRegister(reg: Registry, d: Double, k: Key)
    requires Valid(reg) && d.WellFormed()
    ensures Register(reg, d).Success?
    ensures Lookup(Register(reg, d).value, k) == if k == KeyOf(d) then Some(d) else Lookup(reg, k)
  {
    var r := Register(reg, d).value;
    if k == KeyOf(d) {
      LookupMember(r, d);
    } else {
      match Lookup(reg, k)
      case Some(e) =>
        var i :| 0 <= i < |reg| && reg[i] == e;
        assert r[i] == e;
        LookupMember(r, e);
      case None =>
        forall i | 0 <= i < |r|
          ensures KeyOf(r[i]) != k
        {
          assert r[i] in r;
        }
    }
  }

  /** Registering the same double twice is the same as registering it once. */
  lemma RegisterIdempotent(reg: Registry, d: Double)
    requires Valid(reg) && d.WellFormed()
    ensures Register(Register(reg, d).value, d) == Register(reg, d)
  {
    var r := Register(reg, d).value;
    var i := IndexOfKey(r, KeyOf(d)).value;
    assert r[i] == d;
    assert r[i := d] == r;
  }

  /** After removing a url, its keys are gone and every other key looks up as before. */
  lemma LookupAfterRemove(reg: Registry, url: string, k: Key)
    requires Valid(reg)
    ensures Lookup(RemoveAllWithUrl(reg, url), k) == if k.url == url then None else Lookup(reg, k)
  {
    var r := RemoveAllWithUrl(reg, url);
    if k.url == url {
      forall i | 0 <= i < |r|
        ensures KeyOf(r[i]) != k
      {
        assert r[i] in r;
      }
    } else {
      match Lookup(reg, k)
      case Some(e) =>
        LookupMember(r, e);
      case None =>
        forall i | 0 <= i < |r|
          ensures KeyOf(r[i]) != k
        {
          assert r[i] in r;
        }
    }
  }

  /** `isRegistered` after `removeAllDoublesWithUri(url)`: false for that url, unchanged for all others. */
  lemma IsRegisteredAfterRemove(reg: Registry, url: string, other: string)
    requires AllWellFormed(reg)
    ensures IsRegistered(RemoveAllWithUrl(reg, url), other) <==> other != url && IsRegistered(reg, other)
  {
    var r := RemoveAllWithUrl(reg, url);
    if IsRegistered(r, other) {
      var i :| 0 <= i < |r| && UrlOf(r[i]) == other;
      assert r[i] in r;
      var m :| 0 <= m < |reg| && reg[m] == r[i];
    }
    if other != url && IsRegistered(reg, other) {
      var i :| 0 <= i < |reg| && UrlOf(reg[i]) == other;
      assert reg[i] in reg;
      var m :| 0 <= m < |r| && r[m] == reg[i];
    }
  }

  /** `isRegistered` after a successful `registerDouble(d)`: true for d's url, unchanged for all others. */
  lemma IsRegisteredAfterRegister(reg: Registry, d: Double, other: string)
    requires AllWellFormed(reg) && d.WellFormed()
    ensures Register(reg, d).Success?
    ensures IsRegistered(Register(reg, d).value, other) <==> other == UrlOf(d) || IsRegistered(reg, other)
  {
    var r := Register(reg, d).value;
    if IsRegistered(r, other) && other != UrlOf(d) {
      var i :| 0 <= i < |r| && UrlOf(r[i]) == other;
      assert r[i] in r;
      var m :| 0 <= m < |reg| && reg[m] == r[i];
    }
    if other == UrlOf(d) {
      var i :| 0 <= i < |r| && r[i] == d;
    } else if IsRegistered(reg, other) {
      var i :| 0 <= i < |reg| && UrlOf(reg[i]) == other;
      assert KeyOf(reg[i]) != KeyOf(d);
      assert r[i] == reg[i];
    }
  }

  /** A registered double answers `request` for its own method (in any case) and url. */
  lemma RequestAfterRegister(reg: Registry, d: Double, httpMethod: string)
    requires Valid(reg) && d.WellFormed()
    requires Upper(httpMethod) == KeyOf(d).httpMethod
    ensures Register(reg, d).Success?
    ensures Request(Register(reg, d).value, httpMethod, UrlOf(d)) == Found(d.response)
  {
    LookupAfterRegister(reg, d, KeyOf(d));
  }

  /** Two registrations under one key leave a single slot, answering with the second double. */
  lemma SameKeyReplaces(first: Double, second: Double)
    requires first.WellFormed() && second.WellFormed() && KeyOf(first) == KeyOf(second)
    ensures Register([], first).Success?
    ensures Register(Register([], first).value, second).Success?
    ensures Register(Register([], first).value, second).value == [second]
    ensures Request(Register(Register([], first).value, second).value, KeyOf(first).httpMethod, UrlOf(first))
            == Found(second.response)
  {
    var one := Register([], first).value;
    assert one == [first];
    UpperIdempotent(KeyOf(first).httpMethod);
    RequestAfterRegister(one, second, KeyOf(first).httpMethod);
  }

  /** Two registrations with one url and different methods keep both slots, each answering for its method. */
  lemma DifferentMethodsCoexist(first: Double, second: Double)
    requires first.WellFormed() && second.WellFormed()
    requires UrlOf(first) == UrlOf(second) && KeyOf(first).httpMethod != KeyOf(second).httpMethod
    ensures Register([], first).Success?
    ensures Register(Register([], first).value, second).Success?
    ensures Register(Register([], first).value, second).value == [first, second]
    ensures Request(Register(Register([], first).value, second).value, KeyOf(first).httpMethod, UrlOf(first))
            == Found(first.response)
    ensures Request(Register(Register([], first).value, second).value, KeyOf(second).httpMethod, UrlOf(second))
            == Found(second.response)
  {
    var one := Register([], first).value;
    assert one == [first];
    assert KeyOf(first) != KeyOf(second);
    assert IndexOfKey(one, KeyOf(second)) == None;
    var two := Register(one, second).value;
    assert two == [first, second];
    UpperIdempotent(KeyOf(first).httpMethod);
    UpperIdempotent(KeyOf(second).httpMethod);
    assert IndexOfKey(two, KeyOf(first)) == Some(0);
    assert IndexOfKey(two, KeyOf(second)) == Some(1);
  }

  /** Upper-casing an already upper-cased method changes nothing. */
  lemma UpperIdempotent(s: string)
    ensures Upper(Upper(s)) == Upper(s)
  {
  }

  /** A double without `request` (or without `request.url`) is refused with "Double missing request property.". */
  lemma MissingRequestRejected(reg: Registry, d: Double)
    requires AllWellFormed(reg) && !d.WellFormed()
    ensures Register(reg, d) == Failure(MalformedDouble)
    ensures Message(Register(reg, d).error) == Some("Double missing request property.")
  {
  }
}

=== FILE: resolver.dfy ===
/**
 * The response resolver: turns a matched double into the response the
 * listener writes, and the client-side reading of that response.
 */
module Resolver {
  import opened Wrappers
  import opened Json
  import opened Doubles

  const HtmlType: string := "text/html; charset=utf-8"
  const JsonType: string := "application/json; charset=utf-8"
  const JavascriptType: string := "application/javascript; charset=UTF-8"
  const OctetStreamType: string := "application/octet-stream"

  /** A body: none, text written as is, or the contents of a file streamed by path. */
  datatype Payload = Empty | Text(text: string) | FileStream(path: string)

  datatype HttpResponse = HttpResponse(
    status: int,
    contentType: Option<string>,
    location: Option<string>,
    payload: Payload)

  /** Reads and parses `folder/name`; `None` when the file is missing or not structured data. */
  type FixtureLoader = (string, string) -> Option<Json>

  /** The miss: status 404 and nothing else. */
  const NotFoundResponse: HttpResponse := HttpResponse(NotFoundStatus, None, None, Empty)

  predicate EndsWith(s: string, suffix: string) {
    |suffix| <= |s| && s[|s| - |suffix|..] == suffix
  }

  /** Media type of an attachment, from its file extension. */
  function MimeFor(path: string): (t: string)
    ensures EndsWith(path, ".js") <==> t == JavascriptType
  {
    if EndsWith(path, ".js") then JavascriptType else OctetStreamType
  }

  /** A value sent as JSON: the body parses back to exactly that value. */
  function JsonResponse(status: int, value: Json): (r: HttpResponse)
    ensures r.status == status && r.location.None? && r.contentType == Some(JsonType)
    ensures r.payload.Text? && Parse(r.payload.text) == Some(value)
  {
    ParseSerialize(value);
    HttpResponse(status, Some(JsonType), None, Text(Serialize(value)))
  }

  /** Literal data written as a body: a string as HTML text, anything else as JSON. */
  function DataResponse(status: int, data: Json): (r: HttpResponse)
    ensures r.status == status && r.location.None? && r.payload.Text?
    ensures data.JString? ==> r.contentType == Some(HtmlType) && r.payload.text == data.s
    ensures !data.JString? ==> r.contentType == Some(JsonType) && Parse(r.payload.text) == Some(data)
  {
    match data
    case JString(text) => HttpResponse(status, Some(HtmlType), None, Text(text))
    case _ => JsonResponse(status, data)
  }

  /**
   * Resolution order: a redirect, else an attachment, else a fixture, else the
   * literal `response.data`, else an empty body. The status is always the one
   * the double asks for, 200 by default.
   */
  function Resolve(d: Double, folder: string, fixtures: FixtureLoader): (r: Result<HttpResponse, Error>)
    ensures r.Success? ==> r.value.status == StatusFor(d)
    ensures r.Success? ==> (r.value.location.Some? <==> d.response.Some? && d.response.value.redirectURL.Some?)
    ensures r.Success? && r.value.location.Some? ==>
              r.value.location == d.response.value.redirectURL && r.value.payload == Empty
    ensures r.Failure? ==>
              && d.response.Some? && d.response.value.fixture.Some?
              && r.error == FixtureNotFound(folder, d.response.value.fixture.value)
              && fixtures(folder, d.response.value.fixture.value).None?
  {
    var status := StatusFor(d);
    var spec := d.response.GetOr(ResponseSpec(None, None, None, None));
    if spec.redirectURL.Some? then
      Success(HttpResponse(status, None, spec.redirectURL, Empty))
    else if d.attachment.Some? then
      var path := d.attachment.value.pathToFile;
      Success(HttpResponse(status, Some(MimeFor(path)), None, FileStream(path)))
    else if spec.fixture.Some? then
      match fixtures(folder, spec.fixture.value)
      case None => Failure(FixtureNotFound(folder, spec.fixture.value))
      case Some(value) => Success(JsonResponse(status, value))
    else if spec.data.Some? then
      Success(DataResponse(status, spec.data.value))
    else
      Success(HttpResponse(status, None, None, Empty))
  }

  // ---------------------------------------------------------------------------
  // What the client reads
  // ---------------------------------------------------------------------------

  /** What an HTTP client makes of a body: nothing, text, a parsed JSON value, or a file's bytes. */
  datatype Received = NoData | TextData(text: string) | JsonData(value: Json) | FileData(path: string)

  /**
   * The test client's reading of a body with its default settings: a text
   * body that parses as JSON becomes that value whatever its content type,
   * and any other text is kept verbatim.
   */
  function Receive(resp: HttpResponse): (r: Received)
    ensures r.NoData? <==> resp.payload.Empty?
    ensures r.FileData? <==> resp.payload.FileStream?
    ensures r.FileData? ==> r.path == resp.payload.path
    ensures r.JsonData? ==> resp.payload.Text? && Parse(resp.payload.text) == Some(r.value)
    ensures r.TextData? ==> resp.payload == Text(r.text) && Parse(r.text).None?
  {
    match resp.payload
    case Empty => NoData
    case FileStream(path) => FileData(path)
    case Text(text) =>
      match Parse(text)
      case Some(v) => JsonData(v)
      case None => TextData(text)
  }

  /** A double with no `response`, or one without `status`, answers 200. */
  lemma DefaultStatusIsOk(d: Double, folder: string, fixtures: FixtureLoader)
    requires d.response.None? || d.response.value.status.None?
    ensures Resolve(d, folder, fixtures).Success? ==> Resolve(d, folder, fixtures).value.status == OkStatus
  {
  }

  /** A double that only matches a request, with nothing in `response`, answers 200 with no body. */
  lemma BareDoubleAnswersOk(d: Double, folder: string, fixtures: FixtureLoader)
    requires d.attachment.None?
    requires d.response.None? || d.response.value == ResponseSpec(None, None, None, None)
    ensures Resolve(d, folder, fixtures) == Success(HttpResponse(OkStatus, None, None, Empty))
    ensures Receive(Resolve(d, folder, fixtures).value) == NoData
  {
  }

  /**
   * A string in `response.data` is sent verbatim as `text/html; charset=utf-8`,
   * and read back verbatim unless the text itself reads as JSON.
   */
  lemma StringDataReadBack(d: Double, folder: string, fixtures: FixtureLoader, text: string)
    requires d.attachment.None? && d.response.Some?
    requires d.response.value.redirectURL.None? && d.response.value.fixture.None?
    requires d.response.value.data == Some(JString(text))
    ensures Resolve(d, folder, fixtures).Success?
    ensures Resolve(d, folder, fixtures).value.contentType == Some(HtmlType)
    ensures Resolve(d, folder, fixtures).value.payload == Text(text)
    ensures Parse(text).None? ==> Receive(Resolve(d, folder, fixtures).value) == TextData(text)
  {
  }

  /** String data whose text reads as JSON (`"42"`, `"true"`) reaches the client as that value, not as text. */
  lemma JsonLookingStringData(d: Double, folder: string, fixtures: FixtureLoader, text: string, value: Json)
    requires d.attachment.None? && d.response.Some?
    requires d.response.value.redirectURL.None? && d.response.value.fixture.None?
    requires d.response.value.data == Some(JString(text)) && Parse(text) == Some(value)
    ensures Resolve(d, folder, fixtures).value.contentType == Some(HtmlType)
    ensures Receive(Resolve(d, folder, fixtures).value) == JsonData(value)
  {
  }

  /** Any other value in `response.data` is read back deep-equal, as `application/json; charset=utf-8`. */
  lemma StructuredDataReadBack(d: Double, folder: string, fixtures: FixtureLoader, value: Json)
    requires d.attachment.None? && d.response.Some?
    requires d.response.value.redirectURL.None? && d.response.value.fixture.None?
    requires d.response.value.data == Some(value) && !value.JString?
    ensures Resolve(d, folder, fixtures).Success?
    ensures Resolve(d, folder, fixtures).value.contentType == Some(JsonType)
    ensures Receive(Resolve(d, folder, fixtures).value) == JsonData(value)
  {
    var r := DataResponse(StatusFor(d), value);
    assert Resolve(d, folder, fixtures) == Success(r);
  }

  /** `response.fixture` names a file in the fixtures folder whose parsed contents are read back as JSON. */
  lemma FixtureReadBack(d: Double, folder: string, fixtures: FixtureLoader, name: string, value: Json)
    requires d.attachment.None? && d.response.Some?
    requires d.response.value.redirectURL.None? && d.response.value.fixture == Some(name)
    requires fixtures(folder, name) == Some(value)
    ensures Resolve(d, folder, fixtures).Success?
    ensures Resolve(d, folder, fixtures).value.status == StatusFor(d)
    ensures Resolve(d, folder, fixtures).value.contentType == Some(JsonType)
    ensures Receive(Resolve(d, folder, fixtures).value) == JsonData(value)
  {
    var r := JsonResponse(StatusFor(d), value);
    assert Resolve(d, folder, fixtures) == Success(r);
  }

  /** A fixture the loader cannot supply fails that one resolution with FixtureNotFound. */
  lemma MissingFixtureFails(d: Double, folder: string, fixtures: FixtureLoader, name: string)
    requires d.attachment.None? && d.response.Some?
    requires d.response.value.redirectURL.None? && d.response.value.fixture == Some(name)
    requires fixtures(folder, name).None?
    ensures Resolve(d, folder, fixtures) == Failure(FixtureNotFound(folder, name))
  {
  }

  /** `response.status` with `redirectURL` answers that status with a Location header and no body. */
  lemma RedirectTarget(d: Double, folder: string, fixtures: FixtureLoader, status: int, target: string)
    requires d.response.Some?
    requires d.response.value.status == Some(status) && d.response.value.redirectURL == Some(target)
    ensures Resolve(d, folder, fixtures) == Success(HttpResponse(status, None, Some(target), Empty))
  {
  }

  /** An attachment ending in `.js` is streamed as `application/javascript; charset=UTF-8`, status 200 by default. */
  lemma JavascriptAttachment(d: Double, folder: string, fixtures: FixtureLoader, path: string)
    requires d.attachment == Some(Attachment(path)) && EndsWith(path, ".js")
    requires d.response.None? || (d.response.value.redirectURL.None? && d.response.value.status.None?)
    ensures Resolve(d, folder, fixtures).Success?
    ensures Resolve(d, folder, fixtures).value.status == OkStatus
    ensures Resolve(d, folder, fixtures).value.contentType == Some(JavascriptType)
    ensures Receive(Resolve(d, folder, fixtures).value) == FileData(path)
  {
  }
}

=== FILE: scenarios.dfy ===
/**
 * The concrete situations the repository's test suites set up, replayed on
 * the model: the shape checks on literal objects, several doubles served at
 * once, fixtures with the default folder, and the port a config selects.
 */
module Scenarios {
  import opened Wrappers
  import opened Json
  import opened Doubles
  import opened DoubleRegistry
  import opened Resolver
  import opened Server

  /** `{ request: { url: u }, response: { data: payload } }` */
  function TextDouble(url: string, payload: string): Double {
    Double(Some(RequestRule(None, Some(url))), Some(ResponseSpec(None, Some(JString(payload)), None, None)), None)
  }

  const EmptyObject: JsValue := Object(Double(None, None, None))
  const UrlOnly: JsValue := Object(Double(Some(RequestRule(None, Some("url"))), None, None))

  /** The literal objects the shape checks are exercised with. */
  lemma ShapeChecks()
    ensures IsADouble(UrlOnly)
    ensures !IsADouble(Undefined) && !IsADouble(EmptyObject)
    ensures !IsADouble(Object(Double(Some(RequestRule(None, None)), None, None)))
    ensures IsArrayOfDoubles(Array([UrlOnly]))
    ensures !IsArrayOfDoubles(Array([UrlOnly, EmptyObject])) && !IsArrayOfDoubles(EmptyObject)
  {
    assert Array([UrlOnly, EmptyObject]).elements[1] == EmptyObject;
  }

  /**
   * String data that looks like a zero-padded number is not JSON, so the
   * client keeps it as text, while plain digits reach it as a number.
   */
  lemma DigitStringData(url: string, folder: string, fixtures: FixtureLoader)
    ensures Receive(Resolve(TextDouble(url, "007"), folder, fixtures).value) == TextData("007")
    ensures Receive(Resolve(TextDouble(url, "42"), folder, fixtures).value) == JsonData(JNumber(42))
  {
    LeadingZeroRejected("07");
    assert ['0'] + "07" == "007";
    StringDataReadBack(TextDouble(url, "007"), folder, fixtures, "007");
    NaturalDecode("42", "");
    assert "42" + "" == "42";
    assert DigitsValue("42") == 42 by {
      assert "42"[..1] == "4";
    }
    assert Parse("42") == Some(JNumber(42));
    JsonLookingStringData(TextDouble(url, "42"), folder, fixtures, "42", JNumber(42));
  }

  /** Serving a config of two doubles on a fresh server registers both, in order. */
  lemma ServeTwo(first: Double, second: Double)
    requires first.WellFormed() && second.WellFormed() && KeyOf(first) != KeyOf(second)
    ensures Serve(New(), Some(Config(None, None, Some(Array([Object(first), Object(second)]))))).Success?
    ensures Serve(New(), Some(Config(None, None, Some(Array([Object(first), Object(second)]))))).value.doubles
            == [first, second]
  {
    var x := Array([Object(first), Object(second)]);
    assert x.elements[0] == Object(first) && x.elements[1] == Object(second);
    var ds := ToDoubles(x).value;
    assert ds == [first, second];
    var one := Register([], first).value;
    assert one == [first];
    assert IndexOfKey(one, KeyOf(second)) == None;
    assert Register(one, second).value == [first, second];
    assert RegisterAll([], ds) == RegisterAll(one, ds[1..]);
    assert ds[1..] == [second];
    assert RegisterAll(one, [second]) == RegisterAll([first, second], []);
  }

  const LocalHost: string := "localhost:8001"

  /** `http://localhost:8001` followed by `path`. */
  function LocalUrl(path: string): string {
    "http" + "://" + LocalHost + path
  }

  /** Two doubles served together: a request for the second url gets the second payload. */
  lemma SelectsCorrectDouble(fixtures: FixtureLoader)
    ensures
      var first := TextDouble(LocalUrl("/simpleDoubleGet1"), "simpleDouble1Payload");
      var second := TextDouble(LocalUrl("/simpleDoubleGet2"), "simpleDouble2Payload");
      var config := Config(None, None, Some(Array([Object(first), Object(second)])));
      && Serve(New(), Some(config)).Success?
      && Fetch(Serve(New(), Some(config)).value, fixtures, DefaultPort, "GET", "/simpleDoubleGet2")
         == Answered(Success(HttpResponse(OkStatus, Some(HtmlType), None, Text("simpleDouble2Payload"))))
  {
    var first := TextDouble(LocalUrl("/simpleDoubleGet1"), "simpleDouble1Payload");
    var second := TextDouble(LocalUrl("/simpleDoubleGet2"), "simpleDouble2Payload");
    PathOfAbsoluteUrl("http", LocalHost, "/simpleDoubleGet1");
    PathOfAbsoluteUrl("http", LocalHost, "/simpleDoubleGet2");
    assert PathOf(UrlOf(first)) == "/simpleDoubleGet1";
    assert PathOf(UrlOf(second)) == "/simpleDoubleGet2";
    assert "/simpleDoubleGet1"[16] != "/simpleDoubleGet2"[16];
    assert !Routes(first, "GET", "/simpleDoubleGet2");
    assert Routes(second, "GET", "/simpleDoubleGet2");
    assert KeyOf(first) != KeyOf(second);
    ServeTwoSelects(first, second, fixtures, "GET", "/simpleDoubleGet2");
    assert Resolve(second, DefaultFixturesFolder, fixtures)
           == Success(HttpResponse(OkStatus, Some(HtmlType), None, Text("simpleDouble2Payload")));
  }

  /** With two doubles served, a request routed only by the second is answered by the second. */
  lemma ServeTwoSelects(first: Double, second: Double, fixtures: FixtureLoader, httpMethod: string, path: string)
    requires first.WellFormed() && second.WellFormed() && KeyOf(first) != KeyOf(second)
    requires Routes(second, httpMethod, path) && !Routes(first, httpMethod, path)
    ensures Serve(New(), Some(Config(None, None, Some(Array([Object(first), Object(second)]))))).Success?
    ensures Fetch(Serve(New(), Some(Config(None, None, Some(Array([Object(first), Object(second)]))))).value,
                  fixtures, DefaultPort, httpMethod, path)
            == Answered(Resolve(second, DefaultFixturesFolder, fixtures))
  {
    ServeTwo(first, second);
    RouteToOnlyMatch([first, second], second, httpMethod, path);
  }

  /** A config without `fixturesFolder` reads fixtures from `test/fixtures` and serves them as JSON. */
  lemma FixtureFromDefaultFolder(fixtures: FixtureLoader, url: string, name: string, value: Json)
    requires fixtures(DefaultFixturesFolder, name) == Some(value)
    ensures
      var d := Double(Some(RequestRule(None, Some(url))), Some(ResponseSpec(None, None, None, Some(name))), None);
      var config := Config(None, None, Some(Array([Object(d)])));
      && Serve(New(), Some(config)).Success?
      && Serve(New(), Some(config)).value.fixturesFolder == DefaultFixturesFolder
      && Fetch(Serve(New(), Some(config)).value, fixtures, DefaultPort, "GET", PathOf(url)) == Answered(Resolve(d, DefaultFixturesFolder, fixtures))
      && Resolve(d, DefaultFixturesFolder, fixtures).Success?
      && Resolve(d, DefaultFixturesFolder, fixtures).value.status == OkStatus
      && Resolve(d, DefaultFixturesFolder, fixtures).value.contentType == Some(JsonType)
      && Receive(Resolve(d, DefaultFixturesFolder, fixtures).value) == JsonData(value)
  {
    var d := Double(Some(RequestRule(None, Some(url))), Some(ResponseSpec(None, None, None, Some(name))), None);
    var config := Config(None, None, Some(Array([Object(d)])));
    var ds := ToDoubles(config.doubles.value).value;
    assert ds == [d];
    assert Register([], d).value == [d];
    assert RegisterAll([], ds) == RegisterAll([d], []);
    var s := Serve(New(), Some(config)).value;
    assert s.doubles == [d];
    assert Route(s.doubles, "GET", PathOf(url)) == Some(d);
    FixtureReadBack(d, DefaultFixturesFolder, fixtures, name, value);
  }

  /** `serve()` listens on 8001 and `serve({httpPort: 8002})` on 8002, both keeping loaded doubles. */
  lemma ServePorts(s: Server)
    requires Invariant(s)
    ensures Serve(s, None).Success? && Serve(s, None).value.port == 8001
    ensures Serve(s, Some(Config(Some(8002), None, None))).Success?
    ensures Serve(s, Some(Config(Some(8002), None, None))).value.port == 8002
    ensures Serve(s, Some(Config(Some(8002), None, None))).value.doubles == s.doubles
  {
  }
}

=== FILE: server.dfy ===
/**
 * The server: one registry, the listener's state and port, and the fixtures
 * folder; `load`, `serve`, `start`, `stop`, and what a client receives when it
 * sends a request to the listener.
 */
module Server {
  import opened Wrappers
  import opened Json
  import opened Doubles
  import opened DoubleRegistry
  import opened Resolver

  const DefaultPort: int := 8001
  const DefaultFixturesFolder: string := "test/fixtures"

  /** The object `serve` accepts; every property is optional. */
  datatype Config = Config(httpPort: Option<int>, fixturesFolder: Option<string>, doubles: Option<JsValue>)

  /**
   * The server's state. `response` is the property `request` leaves on the
   * server when nothing matches; nothing else sets it.
   */
  datatype Server = Server(doubles: Registry, listening: bool, port: int, fixturesFolder: string, response: Option<Answer>)

  predicate Invariant(s: Server) {
    DoubleRegistry.Valid(s.doubles)
  }

  /** `new Server`: no doubles, not listening, default port and fixtures folder. */
  function New(): (s: Server)
    ensures Invariant(s) && !s.listening && |s.doubles| == 0
    ensures s.port == DefaultPort && s.fixturesFolder == DefaultFixturesFolder
  {
    Server([], false, DefaultPort, DefaultFixturesFolder, None)
  }

  /** `load(double)`: registers one double and leaves the listener alone. */
  function Load(s: Server, d: Double): (r: Result<Server, Error>)
    requires Invariant(s)
    ensures r.Failure? <==> !d.WellFormed()
    ensures r.Success? ==> Invariant(r.value) && d in r.value.doubles
    ensures r.Success? ==> r.value.doubles == Register(s.doubles, d).value
    ensures r.Success? ==> r.value == s.(doubles := r.value.doubles)
  {
    match Register(s.doubles, d)
    case Failure(e) => Failure(e)
    case Success(reg) => Success(s.(doubles := reg))
  }

  /**
   * `request(method, url)` on the server: answers with the `response` of the
   * double under that key, and on a miss also leaves a 404 answer in the
   * server's `response` property.
   */
  function RequestOn(s: Server, httpMethod: string, url: string): (r: (Server, Answer))
    requires Invariant(s)
    ensures r.1.NotFound? <==> !HasKey(s.doubles, Key(Upper(httpMethod), url))
    ensures r.1.Found? ==> Lookup(s.doubles, Key(Upper(httpMethod), url)).Some?
                           && r.1.response == Lookup(s.doubles, Key(Upper(httpMethod), url)).value.response
    ensures r.1.NotFound? ==> r.0 == s.(response := Some(NotFound)) && StatusOf(r.0.response.value) == NotFoundStatus
    ensures r.1.Found? ==> r.0 == s
  {
    var answer := Request(s.doubles, httpMethod, url);
    if answer.NotFound? then (s.(response := Some(answer)), answer) else (s, answer)
  }

  /** `start(port)`: listens on `port`, 8001 when omitted, serving the current doubles. */
  function Start(s: Server, port: Option<int>): (r: Server)
    ensures r.listening && r.doubles == s.doubles && r.fixturesFolder == s.fixturesFolder
    ensures port.Some? ==> r.port == port.value
    ensures port.None? ==> r.port == DefaultPort
  {
    s.(listening := true, port := port.GetOr(DefaultPort))
  }

  /** `stop()`: releases the listener; the doubles stay registered. */
  function Stop(s: Server): (r: Server)
    ensures !r.listening && r.doubles == s.doubles && r.port == s.port && r.fixturesFolder == s.fixturesFolder
  {
    s.(listening := false)
  }

  /** Registers validated doubles one after another, as repeated `registerDouble` calls do. */
  function RegisterAll(reg: Registry, ds: seq<Double>): (r: Registry)
    requires AllWellFormed(reg)
    requires forall i :: 0 <= i < |ds| ==> ds[i].WellFormed()
    ensures AllWellFormed(r)
    ensures DoubleRegistry.Valid(reg) ==> DoubleRegistry.Valid(r)
    decreases |ds|
  {
    if |ds| == 0 then reg
    else RegisterAll(Register(reg, ds[0]).value, ds[1..])
  }

  /** The last double of `ds` with key `k`. */
  function LastWithKey(ds: seq<Double>, k: Key): (r: Option<Double>)
    requires forall i :: 0 <= i < |ds| ==> ds[i].WellFormed()
    ensures r.Some? ==> r.value in ds && KeyOf(r.value) == k
    ensures r.Some? ==> exists i :: 0 <= i < |ds| && ds[i] == r.value &&
                          forall j :: i < j < |ds| ==> KeyOf(ds[j]) != k
    ensures r.None? <==> forall i :: 0 <= i < |ds| ==> KeyOf(ds[i]) != k
  {
    if |ds| == 0 then None
    else
      match LastWithKey(ds[1..], k)
      case Some(d) =>
        assert forall j :: 1 <= j < |ds| ==> ds[j] == ds[1..][j - 1];
        Some(d)
      case None => if KeyOf(ds[0]) == k then Some(ds[0]) else None
  }

  /** After a bulk registration each key yields the last double given for it, or what it yielded before. */
  lemma {:induction false} LookupAfterRegisterAll(reg: Registry, ds: seq<Double>, k: Key)
    requires DoubleRegistry.Valid(reg)
    requires forall i :: 0 <= i < |ds| ==> ds[i].WellFormed()
    ensures Lookup(RegisterAll(reg, ds), k) ==
            if LastWithKey(ds, k).Some? then LastWithKey(ds, k) else Lookup(reg, k)
    decreases |ds|
  {
    if |ds| > 0 {
      var next := Register(reg, ds[0]).value;
      LookupAfterRegister(reg, ds[0], k);
      LookupAfterRegisterAll(next, ds[1..], k);
    }
  }

  /**
   * `serve(config)`: port `config.httpPort` or 8001, fixtures folder
   * `config.fixturesFolder` or `test/fixtures`, the doubles of `config.doubles`
   * registered on top of those already loaded, then listening. A `doubles`
   * property that is not an array of doubles is refused.
   */
  function Serve(s: Server, config: Option<Config>): (r: Result<Server, Error>)
    requires Invariant(s)
    ensures r.Failure? <==> config.Some? && config.value.doubles.Some? && !IsArrayOfDoubles(config.value.doubles.value)
    ensures r.Failure? ==> r.error == MalformedDouble
    ensures r.Success? ==> Invariant(r.value) && r.value.listening
    ensures r.Success? ==> r.value.port == if config.Some? && config.value.httpPort.Some? then config.value.httpPort.value else DefaultPort
    ensures r.Success? ==>
              r.value.fixturesFolder ==
              if config.Some? && config.value.fixturesFolder.Some? then config.value.fixturesFolder.value else DefaultFixturesFolder
    ensures r.Success? && (config.None? || config.value.doubles.None?) ==> r.value.doubles == s.doubles
  {
    var c := config.GetOr(Config(None, None, None));
    var port := c.httpPort.GetOr(DefaultPort);
    var folder := c.fixturesFolder.GetOr(DefaultFixturesFolder);
    if c.doubles.None? then
      Success(s.(listening := true, port := port, fixturesFolder := folder))
    else
      match ToDoubles(c.doubles.value)
      case Failure(e) => Failure(e)
      case Success(ds) => Success(s.(doubles := RegisterAll(s.doubles, ds), listening := true, port := port, fixturesFolder := folder))
  }

  /** Every double of a served config answers `request` under its key unless a later one of the config shares that key. */
  lemma ServeRegistersConfigDoubles(s: Server, c: Config, ds: seq<Double>, k: Key)
    requires Invariant(s) && c.doubles.Some? && ToDoubles(c.doubles.value) == Success(ds)
    ensures Serve(s, Some(c)).Success?
    ensures Lookup(Serve(s, Some(c)).value.doubles, k) ==
            if LastWithKey(ds, k).Some? then LastWithKey(ds, k) else Lookup(s.doubles, k)
  {
    LookupAfterRegisterAll(s.doubles, ds, k);
  }

  // ---------------------------------------------------------------------------
  // The listener
  // ---------------------------------------------------------------------------

  /** The first index of `c` in `s`. */
  function IndexOfChar(s: string, c: char): (r: Option<nat>)
    ensures r.Some? ==> r.value < |s| && s[r.value] == c && forall j :: 0 <= j < r.value ==> s[j] != c
    ensures r.None? <==> forall j :: 0 <= j < |s| ==> s[j] != c
  {
    if |s| == 0 then None
    else if s[0] == c then Some(0)
    else
      match IndexOfChar(s[1..], c)
      case None => None
      case Some(i) => Some(i + 1)
  }

  /**
   * The route a double's url is served under: for `scheme://authority/path`
   * the `/path` part (`/` when there is none); a url without a scheme is used
   * as it stands.
   */
  function PathOf(url: string): string {
    match IndexOfChar(url, ':')
    case Some(i) =>
      if i + 3 <= |url| && url[i + 1..i + 3] == "//" then
        var authorityAndPath := url[i + 3..];
        match IndexOfChar(authorityAndPath, '/')
        case None => "/"
        case Some(j) => authorityAndPath[j..]
      else url
    case None => url
  }

  /** The first `c` of `prefix + rest` is the first of `rest` when `prefix` has none. */
  lemma {:induction false} IndexOfCharAfter(prefix: string, c: char, rest: string)
    requires forall i :: 0 <= i < |prefix| ==> prefix[i] != c
    requires |rest| > 0 && rest[0] == c
    ensures IndexOfChar(prefix + rest, c) == Some(|prefix|)
    decreases |prefix|
  {
    if |prefix| > 0 {
      assert (prefix + rest)[1..] == prefix[1..] + rest;
      IndexOfCharAfter(prefix[1..], c, rest);
    }
  }

  /** Where the scheme separator and the authority lie in `scheme://` followed by `tail`. */
  lemma SchemeLayout(scheme: string, tail: string)
    requires forall i :: 0 <= i < |scheme| ==> scheme[i] != ':'
    ensures IndexOfChar(scheme + "://" + tail, ':') == Some(|scheme|)
    ensures |scheme| + 3 <= |scheme + "://" + tail|
    ensures (scheme + "://" + tail)[|scheme| + 1..|scheme| + 3] == "//"
    ensures (scheme + "://" + tail)[|scheme| + 3..] == tail
  {
    var url := scheme + "://" + tail;
    assert url == scheme + ("://" + tail);
    IndexOfCharAfter(scheme, ':', "://" + tail);
  }

  /** The path of `scheme://host` followed by a path is that path, whatever the host and port. */
  lemma PathOfAbsoluteUrl(scheme: string, host: string, path: string)
    requires forall i :: 0 <= i < |scheme| ==> scheme[i] != ':'
    requires forall i :: 0 <= i < |host| ==> host[i] != '/'
    requires |path| > 0 && path[0] == '/'
    ensures PathOf(scheme + "://" + host + path) == path
  {
    assert scheme + "://" + host + path == scheme + "://" + (host + path);
    SchemeLayout(scheme, host + path);
    IndexOfCharAfter(host, '/', path);
    assert (host + path)[|host|..] == path;
  }

  /** A url with a scheme and a host but no path is served under `/`. */
  lemma PathOfOrigin(scheme: string, host: string)
    requires forall i :: 0 <= i < |scheme| ==> scheme[i] != ':'
    requires forall i :: 0 <= i < |host| ==> host[i] != '/'
    ensures PathOf(scheme + "://" + host) == "/"
  {
    SchemeLayout(scheme, host);
  }

  /** The listener's route for a double: its method and the path of its url. */
  predicate Routes(d: Double, httpMethod: string, path: string)
    requires d.WellFormed()
  {
    KeyOf(d).httpMethod == Upper(httpMethod) && PathOf(UrlOf(d)) == path
  }

  /** The double the listener dispatches a request to: the first registered one whose route matches. */
  function Route(reg: Registry, httpMethod: string, path: string): (r: Option<Double>)
    requires AllWellFormed(reg)
    ensures r.Some? ==> r.value in reg && r.value.WellFormed() && Routes(r.value, httpMethod, path)
    ensures r.Some? ==> exists i :: 0 <= i < |reg| && reg[i] == r.value &&
                          forall j :: 0 <= j < i ==> !Routes(reg[j], httpMethod, path)
    ensures r.None? <==> forall i :: 0 <= i < |reg| ==> !Routes(reg[i], httpMethod, path)
  {
    if |reg| == 0 then None
    else if Routes(reg[0], httpMethod, path) then Some(reg[0])
    else
      match Route(reg[1..], httpMethod, path)
      case None => None
      case Some(d) =>
        assert forall j :: 1 <= j < |reg| ==> reg[j] == reg[1..][j - 1];
        Some(d)
  }

  /** What a client sending a request to `port` experiences. */
  datatype Exchange = Refused | Answered(outcome: Result<HttpResponse, Error>)

  /** A request reaching the listener: the routed double's response, or 404. */
  function Fetch(s: Server, fixtures: FixtureLoader, port: int, httpMethod: string, path: string): (x: Exchange)
    requires Invariant(s)
    ensures x.Refused? <==> !s.listening || port != s.port
    ensures x.Answered? && Route(s.doubles, httpMethod, path).None? ==> x.outcome == Success(NotFoundResponse)
    ensures x.Answered? && Route(s.doubles, httpMethod, path).Some? ==>
              x.outcome == Resolve(Route(s.doubles, httpMethod, path).value, s.fixturesFolder, fixtures)
  {
    if !s.listening || port != s.port then Refused
    else
      match Route(s.doubles, httpMethod, path)
      case None => Answered(Success(NotFoundResponse))
      case Some(d) => Answered(Resolve(d, s.fixturesFolder, fixtures))
  }

  /** The one double whose route matches is the one dispatched to. */
  lemma RouteToOnlyMatch(reg: Registry, d: Double, httpMethod: string, path: string)
    requires AllWellFormed(reg) && d in reg && d.WellFormed() && Routes(d, httpMethod, path)
    requires forall e :: e in reg && e != d ==> !Routes(e, httpMethod, path)
    ensures Route(reg, httpMethod, path) == Some(d)
  {
    var i :| 0 <= i < |reg| && reg[i] == d;
    assert reg[i] in reg;
  }

  /** A double that survives removing `url` and whose route matches the request. */
  predicate ServesAfterRemove(d: Double, url: string, httpMethod: string, path: string)
    requires d.WellFormed()
  {
    UrlOf(d) != url && Routes(d, httpMethod, path)
  }

  /** `r` is the first double of `reg`, in registration order, that survives removing `url` and matches. */
  predicate FirstServing(reg: Registry, url: string, httpMethod: string, path: string, r: Option<Double>)
    requires AllWellFormed(reg)
  {
    && (r.None? <==> forall i :: 0 <= i < |reg| ==> !ServesAfterRemove(reg[i], url, httpMethod, path))
    && (r.Some? ==> exists i :: 0 <= i < |reg| && reg[i] == r.value
                      && ServesAfterRemove(reg[i], url, httpMethod, path)
                      && forall j :: 0 <= j < i ==> !ServesAfterRemove(reg[j], url, httpMethod, path))
  }

  /** Routing a registry whose first double is `h`: `h` if it matches, otherwise the rest's route. */
  lemma RouteCons(h: Double, rest: Registry, httpMethod: string, path: string)
    requires h.WellFormed() && AllWellFormed(rest)
    ensures AllWellFormed([h] + rest)
    ensures Route([h] + rest, httpMethod, path) ==
            if Routes(h, httpMethod, path) then Some(h) else Route(rest, httpMethod, path)
  {
    assert ([h] + rest)[0] == h && ([h] + rest)[1..] == rest;
  }

  /** A first double that does not serve the request leaves the answer to the rest. */
  lemma FirstServingSkip(reg: Registry, url: string, httpMethod: string, path: string, r: Option<Double>)
    requires AllWellFormed(reg) && |reg| > 0 && !ServesAfterRemove(reg[0], url, httpMethod, path)
    requires FirstServing(reg[1..], url, httpMethod, path, r)
    ensures FirstServing(reg, url, httpMethod, path, r)
  {
    assert forall j :: 1 <= j < |reg| ==> reg[j] == reg[1..][j - 1];
    if r.Some? {
      var i :| 0 <= i < |reg[1..]| && reg[1..][i] == r.value
               && ServesAfterRemove(reg[1..][i], url, httpMethod, path)
               && forall j :: 0 <= j < i ==> !ServesAfterRemove(reg[1..][j], url, httpMethod, path);
      assert reg[i + 1] == r.value;
    }
  }

  /**
   * After `removeAllDoublesWithUri(url)` the listener dispatches to the first
   * double, in registration order, that both survives and matches.
   */
  lemma {:induction false} RouteAfterRemove(reg: Registry, url: string, httpMethod: string, path: string)
    requires AllWellFormed(reg)
    ensures FirstServing(reg, url, httpMethod, path, Route(RemoveAllWithUrl(reg, url), httpMethod, path))
    decreases |reg|
  {
    if |reg| > 0 {
      var h, t := reg[0], reg[1..];
      assert reg == [h] + t;
      RemoveKeepsOrder([h], t, url);
      var rt := RemoveAllWithUrl(t, url);
      RouteAfterRemove(t, url, httpMethod, path);
      if UrlOf(h) == url {
        FirstServingSkip(reg, url, httpMethod, path, Route(rt, httpMethod, path));
      } else {
        RouteCons(h, rt, httpMethod, path);
        if !Routes(h, httpMethod, path) {
          FirstServingSkip(reg, url, httpMethod, path, Route(rt, httpMethod, path));
        }
      }
    }
  }

  /**
   * A double loaded before `serve` with a config that carries no doubles is
   * answered by the listener on the configured port, provided no double with
   * another key already owns its route.
   */
  lemma LoadThenServe(s: Server, d: Double, c: Config, fixtures: FixtureLoader, httpMethod: string)
    requires Invariant(s) && d.WellFormed() && c.doubles.None?
    requires Upper(httpMethod) == KeyOf(d).httpMethod
    requires forall e :: e in s.doubles && KeyOf(e) != KeyOf(d) ==> !Routes(e, httpMethod, PathOf(UrlOf(d)))
    ensures Load(s, d).Success? && Serve(Load(s, d).value, Some(c)).Success?
    ensures Serve(Load(s, d).value, Some(c)).value.port == c.httpPort.GetOr(DefaultPort)
    ensures Fetch(Serve(Load(s, d).value, Some(c)).value, fixtures, c.httpPort.GetOr(DefaultPort), httpMethod, PathOf(UrlOf(d)))
            == Answered(Resolve(d, Serve(Load(s, d).value, Some(c)).value.fixturesFolder, fixtures))
  {
    var loaded := Load(s, d).value;
    var t := Serve(loaded, Some(c)).value;
    var reg := t.doubles;
    assert reg == loaded.doubles;
    forall e | e in reg && e != d
      ensures !Routes(e, httpMethod, PathOf(UrlOf(d)))
    {
      var i :| 0 <= i < |reg| && reg[i] == e;
      assert KeyOf(e) != KeyOf(d);
      assert e in s.doubles;
    }
    RouteToOnlyMatch(reg, d, httpMethod, PathOf(UrlOf(d)));
  }

  /** `stop()` then `start()` on the same port serves exactly what was served before. */
  lemma StopThenStart(s: Server, fixtures: FixtureLoader, httpMethod: string, path: string)
    requires Invariant(s) && s.listening
    ensures Invariant(Start(Stop(s), Some(s.port)))
    ensures Fetch(Stop(s), fixtures, s.port, httpMethod, path) == Refused
    ensures Fetch(Start(Stop(s), Some(s.port)), fixtures, s.port, httpMethod, path) ==
            Fetch(s, fixtures, s.port, httpMethod, path)
  {
  }

  /** A fresh server started without a port answers 404 on port 8001 for every request. */
  lemma FreshServerAnswersNotFound(fixtures: FixtureLoader, httpMethod: string, path: string)
    ensures Fetch(Start(New(), None), fixtures, DefaultPort, httpMethod, path) == Answered(Success(NotFoundResponse))
    ensures StatusOf(Request(Start(New(), None).doubles, httpMethod, path)) == NotFoundStatus
  {
  }

  /** On a server with no doubles, `request` leaves a 404 in the server's `response` property. */
  lemma UnmatchedRequestLeaves404(httpMethod: string, url: string)
    ensures RequestOn(New(), httpMethod, url).1 == NotFound
    ensures RequestOn(New(), httpMethod, url).0.response == Some(NotFound)
    ensures StatusOf(RequestOn(New(), httpMethod, url).0.response.value) == NotFoundStatus
  {
  }

  /** Serving again after `stop()` with a double of an already served key answers with the new double. */
  lemma ReserveReplaces(s: Server, c1: Config, c2: Config, d: Double)
    requires Invariant(s) && d.WellFormed()
    requires c1.doubles.None? || IsArrayOfDoubles(c1.doubles.value)
    requires c2.doubles == Some(Array([Object(d)]))
    ensures Serve(s, Some(c1)).Success?
    ensures Serve(Stop(Serve(s, Some(c1)).value), Some(c2)).Success?
    ensures Lookup(Serve(Stop(Serve(s, Some(c1)).value), Some(c2)).value.doubles, KeyOf(d)) == Some(d)
  {
    var t := Stop(Serve(s, Some(c1)).value);
    assert ToDoubles(c2.doubles.value).value == [d];
    ServeRegistersConfigDoubles(t, c2, [d], KeyOf(d));
    assert LastWithKey([d][1..], KeyOf(d)) == None;
  }

  /** A listening server whose only double is `d` answers `d`'s own method and path with `d`'s resolution. */
  lemma OnlyDoubleAnswers(s: Server, d: Double, fixtures: FixtureLoader)
    requires s.listening && s.doubles == [d] && d.WellFormed()
    ensures Fetch(s, fixtures, s.port, KeyOf(d).httpMethod, PathOf(UrlOf(d))) ==
            Answered(Resolve(d, s.fixturesFolder, fixtures))
  {
    UpperIdempotent(KeyOf(d).httpMethod);
    assert Routes(d, KeyOf(d).httpMethod, PathOf(UrlOf(d)));
    RouteToOnlyMatch([d], d, KeyOf(d).httpMethod, PathOf(UrlOf(d)));
  }

  /** On a new server, serving one double on port 8001 makes the listener answer its request with it. */
  lemma ServeThenFetch(d: Double, fixtures: FixtureLoader)
    requires d.WellFormed()
    ensures
      var c := Config(Some(DefaultPort), None, Some(Array([Object(d)])));
      && Serve(New(), Some(c)).Success?
      && Fetch(Serve(New(), Some(c)).value, fixtures, DefaultPort, KeyOf(d).httpMethod, PathOf(UrlOf(d)))
         == Answered(Resolve(d, DefaultFixturesFolder, fixtures))
  {
    var c := Config(Some(DefaultPort), None, Some(Array([Object(d)])));
    assert ToDoubles(c.doubles.value).value == [d];
    assert Register([], d).value == [d];
    assert RegisterAll([], [d]) == RegisterAll([d], []);
    var t := Serve(New(), Some(c)).value;
    assert t.doubles == [d];
    OnlyDoubleAnswers(t, d, fixtures);
  }

  /**
   * On a new server: serve `d` on port 8001, stop, serve `e` with the same key;
   * the listener answers that key's request with `e`.
   */
  lemma ReserveThenFetch(d: Double, e: Double, fixtures: FixtureLoader)
    requires d.WellFormed() && e.WellFormed() && KeyOf(d) == KeyOf(e)
    ensures
      var c1 := Config(Some(DefaultPort), None, Some(Array([Object(d)])));
      var c2 := Config(Some(DefaultPort), None, Some(Array([Object(e)])));
      && Serve(New(), Some(c1)).Success?
      && Serve(Stop(Serve(New(), Some(c1)).value), Some(c2)).Success?
      && Fetch(Serve(Stop(Serve(New(), Some(c1)).value), Some(c2)).value, fixtures, DefaultPort,
               KeyOf(e).httpMethod, PathOf(UrlOf(e)))
         == Answered(Resolve(e, DefaultFixturesFolder, fixtures))
  {
    var c1 := Config(Some(DefaultPort), None, Some(Array([Object(d)])));
    var c2 := Config(Some(DefaultPort), None, Some(Array([Object(e)])));
    assert ToDoubles(c1.doubles.value).value == [d];
    assert Register([], d).value == [d];
    assert RegisterAll([], [d]) == RegisterAll([d], []);
    var t := Stop(Serve(New(), Some(c1)).value);
    assert t.doubles == [d];
    assert ToDoubles(c2.doubles.value).value == [e];
    assert IndexOfKey([d], KeyOf(e)) == Some(0);
    assert Register([d], e).value == [e];
    assert RegisterAll([d], [e]) == RegisterAll([e], []);
    var u := Serve(t, Some(c2)).value;
    assert u.doubles == [e];
    OnlyDoubleAnswers(u, e, fixtures);
  }
}

=== FILE: wrappers.dfy ===
/** Failure-carrying return types shared by every module of the model. */
module Wrappers {

  /** A value that may be absent: JavaScript's `undefined` for an optional property. */
  datatype Option<+T> = None | Some(value: T) {

    /** The carried value, or `default` when absent (JavaScript's `x ?? default`). */
    function GetOr(default: T): T {
      match this
      case Some(v) => v
      case None => default
    }
  }

  /** Either a computed value or the error the source throws instead. */
  datatype Result<+R, +E> = Success(value: R) | Failure(error: E)
}
